=== FILE: README.md ===
# EduLearn notes library: a Dafny model

EduLearn is a community notes-sharing web application. Signed-in users upload study documents to a shared library. Anyone can browse and filter the library, preview a note (the first pages of a PDF, or an image), and download it. Each download counts one view.

This project models the core of that system as pure functions over immutable values.

- **The note record store** (`server/routes/notes.ts`). Each handler is modelled as a function from the disk it finds to the response and the disk it leaves. The disk is the notes file plus the set of names in the uploads directory. The handlers are:
  - `readNotes` with its defaults;
  - `listNotes`, newest first;
  - `getNote`;
  - `uploadNote`, with its validation order and the removal of the stored binary on rejection;
  - `deleteNote`, on the first match only;
  - `updateNote`, title and description only;
  - `addView`.

  The clock and the generated part of a stored file's name are parameters.
- **The record store's invariant** (module `NoteStore`). Records and stored binaries are linked one to one, and each id and url is derived from its filename. The module proves that every handler preserves this invariant. It also proves the first-match behaviour of lookups, and the upload → view → delete scenario.
- **The contact form handler** (`server/routes/contact.ts`). It validates a submission, builds the stored entry, and composes the notification mail's subject, text and HTML. What the mail relay reports is a parameter.
- **The client pages**, each handler modelled as the sequence of effects it issues:
  - the library page (`Courses.tsx`): size labels, upload-form checks, reply handling, and the course and subject filters;
  - the profile page (`Profile.tsx`): "my uploads", rename, delete and profile save;
  - the viewer (`Viewer.tsx`): fetch, preview mode, download and back;
  - the PDF preview (`PdfPreview.tsx`): modelled as the trace of what it does to the page, checked against an acceptor for its ordering rules;
  - the session mapping and profile-update payload (`AuthContext.tsx`).
- **`ClientServer`** connects the two sides. It dispatches a page's request to the server handlers, so page-and-server scenarios can be stated as lemmas.
- **Record layouts.** `NoteItem` and `ContactSubmission` come from `EduLearn-main/shared/api.ts`.

Helper modules:

| module | contents |
|---|---|
| `Maybe` | `Option` |
| `Text` | JavaScript `trim`, truthiness, `includes`, `startsWith`, `toLowerCase`, `split`, `replace`, numerals, and string order for `localeCompare` |
| `Paths` | `path.basename`, `path.extname`, `path.parse(p).name`, and the upload middleware's generated names |
| `Seqs` | `filter` and subsequences |
| `NewestFirst` | a stable sort on a string key, newest first |

## Where the code departs from its evident intent

The model follows the code as written in each case. The "intended" column names the source lines that show the intent.

| topic | intended | code as written |
|---|---|---|
| titles | a note has a non-blank title: the upload route rejects a blank one (`server/routes/notes.ts:70-73`) | `PATCH` stores `title.trim()` without that check, so a blank title is stored as `""` (`server/routes/notes.ts:122`; `NoteStore.UpdateAcceptsBlankTitle`) |
| view counts | a download adds one to a numeric count, and the listing reports numeric counts (`server/routes/notes.ts:48`) | `(note.views ?? 0) + 1` on a count stored as a string appends `"1"`, and the listing keeps reporting 0 for it (`server/routes/notes.ts:133`; `NoteStore.TextCountNeverRises`) |
| preview gate | every preview ends in a "Download to continue" gate: PDFs go to the preview (`EduLearn-main/client/pages/Viewer.tsx:43-44`), images always get one (`EduLearn-main/client/pages/Viewer.tsx:46-50`), and the overlay is the preview's gate (`client/components/viewer/PdfPreview.tsx:31`) | the gate is added only after page 2, so a one-page PDF has none (`client/components/viewer/PdfPreview.tsx:30`; see Findings) |
| note load failure | a failed fetch clears the note (`EduLearn-main/client/pages/Viewer.tsx:13`) | a cleared note shows "Loading note…" for good (`EduLearn-main/client/pages/Viewer.tsx:27-29`) |
| preview load failure | the preview renders once pdf.js has the document (`client/components/viewer/PdfPreview.tsx:15`) | a failed load leaves `ready` false, so "Loading preview…" stays (`client/components/viewer/PdfPreview.tsx:60`) |
| missing note | the viewer shows a note fetched by id (`EduLearn-main/client/pages/Viewer.tsx:13`) | the 404 body `{ ok: false, error }` (`server/routes/notes.ts:142`) is stored as the note and rendered (`EduLearn-main/client/pages/Viewer.tsx:27-39`; `ViewerPage.OnFetched`) |

## Model

| member | source | states |
|---|---|---|
| NotesRoutes.WithDefaults | server/routes/notes.ts:35 | a record read without `views` gets `views: 0`; a present value (even `null` or a string) is kept |
| NotesRoutes.DefaultsKeepFields | server/routes/notes.ts:35 | the read defaults change nothing but `views`, and nothing at all when `views` is present |
| NotesRoutes.ReadNotes | server/routes/notes.ts:30-39 | a missing or unparseable notes file reads as no records; otherwise one record per stored entry, in order, with defaults applied, none lacking `views` |
| NotesRoutes.FirstIndex | server/routes/notes.ts:108-141 | `find`/`findIndex` by id: the returned position carries the id and no earlier one does; none exactly when no record carries it |
| NotesRoutes.ListedAll | server/routes/notes.ts:48 | the listing reports every record, each with a numeric view count |
| NotesRoutes.ListNotes | server/routes/notes.ts:45-51 | 200 with a permutation of the records (non-numeric views as 0), sorted newest `uploadedAt` first with ties in stored order; the disk is unchanged |
| NewestFirst.SortNewestFirst | server/routes/notes.ts:49 | the sorted list is a permutation of its input, descending by key, and stable |
| NewestFirst.Insert | server/routes/notes.ts:49 | one insertion step adds exactly the element (as a multiset) |
| NewestFirst.InsertDescending | server/routes/notes.ts:49 | inserting into a descending list keeps it descending |
| NewestFirst.InsertStamped | server/routes/notes.ts:49 | insertion keeps the relative order of elements with equal keys (stability) |
| NewestFirst.InsertKeepsStamps | server/routes/notes.ts:49 | stability carries over from a sorted tail to the list with one more element |
| NewestFirst.StampedCons | server/routes/notes.ts:49 | the equal-key subsequence of `[x] + s` is `x` (when its key matches) before that of `s` |
| Text.PrecedesTrichotomy | server/routes/notes.ts:49 | the string order used for `localeCompare` is total and antisymmetric |
| Text.PrecedesTransitive | server/routes/notes.ts:49 | the string order is transitive |
| Text.PrecedesIrreflexive | server/routes/notes.ts:49 | no string precedes itself |
| Text.NotPrecedesTransitive | server/routes/notes.ts:49 | "not before" is transitive, so the newest-first order is a total preorder |
| NotesRoutes.GetNote | server/routes/notes.ts:138-144 | the first record with the id, as read, with 200; otherwise 404 `Not found`; the disk is unchanged |
| NotesRoutes.UploadNote | server/routes/notes.ts:53-103 | checks in order: no file gives 400 `File is required` with nothing touched; then blank owner email 401, blank title 400, blank course 400 (each iff), each removing the stored binary and leaving the notes file alone; otherwise 200, one record appended last, with the binary kept, the trimmed fields, absent blank optionals, `views` 0, `url` `/uploads/<filename>`, id the filename without extension, `uploadedAt` now |
| NotesRoutes.DeleteNote | server/routes/notes.ts:105-114 | unknown id: 404 and the disk unchanged; otherwise `{ ok: true }`, the first record with the id removed, the others kept in order, and its binary gone from the uploads directory |
| NotesRoutes.UpdateNote | server/routes/notes.ts:116-126 | unknown id: 404, nothing written; otherwise only the first match's title and description change, each only when sent as a string, trimmed; every other field, record and binary unchanged |
| NotesRoutes.Bump | server/routes/notes.ts:133 | `(views ?? 0) + 1` under JavaScript's `+`: a number (or missing/null as 0) rises by exactly one; a string count becomes that string with `"1"` appended |
| NotesRoutes.AddView | server/routes/notes.ts:128-136 | unknown id: 404, disk unchanged; otherwise the first match's count is bumped and returned, all else unchanged |
| NoteStore.ReadWritten | server/routes/notes.ts:35-42 | records that already carry `views` read back exactly as written |
| NoteStore.FilenamesAppend | server/routes/notes.ts:98 | the filenames of a concatenation are the union of the parts' filenames |
| NoteStore.FilenamesIndex | server/routes/notes.ts:84 | a filename is in the set exactly when some record carries it |
| NoteStore.LinkedAppend | server/routes/notes.ts:79-99 | appending a derived record with a new binary keeps records and binaries one to one |
| NoteStore.UploadKeepsConsistent | server/routes/notes.ts:53-103 | with a freshly named binary, every upload outcome keeps the store consistent |
| NoteStore.UploadAcceptedConsistent | server/routes/notes.ts:79-99 | an accepted upload adds the record and its binary together and stays consistent |
| NoteStore.UploadRejectedUnchanged | server/routes/notes.ts:64-77 | a rejected upload takes back the binary it was given, leaving the disk exactly as before |
| NoteStore.DistinctRemove | server/routes/notes.ts:110 | removing a record keeps filenames distinct |
| NoteStore.FilenamesRemove | server/routes/notes.ts:110-112 | removing a record removes exactly its filename from the set |
| NoteStore.LinkedRemove | server/routes/notes.ts:110-112 | removing a record together with its binary keeps the one-to-one link |
| NoteStore.DeleteKeepsConsistent | server/routes/notes.ts:105-114 | a delete keeps the store consistent |
| NoteStore.FilenamesPointwise | server/routes/notes.ts:122-123 | records agreeing on every filename have the same filename set |
| NoteStore.DistinctReplace | server/routes/notes.ts:122-123 | replacing a record by one with the same filename keeps filenames distinct |
| NoteStore.LinkedReplace | server/routes/notes.ts:122-123 | replacing a record by one with the same filename, id and url keeps the link |
| NoteStore.UpdateKeepsConsistent | server/routes/notes.ts:116-126 | an update keeps the store consistent |
| NoteStore.AddViewKeepsConsistent | server/routes/notes.ts:128-136 | a view keeps the store consistent |
| NoteStore.AddViewCountsOnce | server/routes/notes.ts:128-136 | a numeric, missing or null count as listed rises by exactly one on the first match; every other record is unchanged |
| NoteStore.TextCountNeverRises | server/routes/notes.ts:48-133 | a count stored as a string is extended instead of incremented, so the listed count stays 0 |
| NoteStore.FirstIndexAppend | server/routes/notes.ts:97-98 | records appended after the first match do not change which record a lookup finds |
| NoteStore.DuplicateIdIsShadowed | server/routes/notes.ts:79-141 | an upload whose id is taken is still accepted, yet every lookup of that id keeps finding the older, different record |
| NoteStore.UploadIdIsStem | server/routes/notes.ts:21-79 | for a middleware-generated name, the accepted record's id is `${Date.now()}-${random}`, and the id plus the original extension is the filename |
| NoteStore.StemIsId | server/routes/notes.ts:21-79 | `path.parse(name).name` of a generated name is its stem, and stem plus extension is the name |
| NoteStore.ExtensionsCollideOnId | server/routes/notes.ts:21-79 | two names generated with the same stamp and random part share an id, and are the same file iff the original extensions agree |
| NoteStore.DeleteThenGet | server/routes/notes.ts:108-141 | after a delete, a lookup of the id finds the next record with that id, or none when the deleted one was the only one |
| NoteStore.DeleteLeaves | server/routes/notes.ts:108-111 | the records a delete leaves are all but the first match, in order |
| NoteStore.FindAfterRemove | server/routes/notes.ts:108 | removing the first match shifts the next match's position by one |
| NoteStore.ReadRemoved | server/routes/notes.ts:110-111 | the remaining records read back as written |
| NoteStore.FirstIndexSkip | server/routes/notes.ts:108 | records without the id before a list shift its first match by their number |
| NoteStore.FirstIndexOfLast | server/routes/notes.ts:98-131 | a record appended after records without its id is the first match |
| NoteStore.ViewOfLast | server/routes/notes.ts:128-136 | viewing the last record (its id unused before it) bumps exactly that record |
| NoteStore.DeleteOfLast | server/routes/notes.ts:105-114 | deleting the last record (its id unused before it) gives back the earlier records and removes its binary |
| NoteStore.UploadAppends | server/routes/notes.ts:97-99 | an accepted upload stores the earlier records followed by the new one |
| NoteStore.UploadThenView | server/routes/notes.ts:97-136 | upload then view: the new record's count reads 1 and it stays last |
| NoteStore.UploadViewDelete | server/routes/notes.ts:53-144 | upload, view, delete: the view answers count 1; afterwards a get answers 404, the earlier records are as before, the uploaded binary is gone, and the binaries are as before when its name was new |
| NoteStore.DeleteViewedLast | server/routes/notes.ts:105-114 | deleting the only record with its id, stored last, leaves the other records, removes its binary, and a later get answers 404 |
| NoteStore.UpdateAcceptsBlankTitle | server/routes/notes.ts:116-125 | a PATCH with any blank or whitespace-only title, with or without a description, answers 200 and stores the empty title on the first matching record |
| Text.Trim | server/routes/notes.ts:64-82 | `trim`: empty exactly for all-whitespace input, and otherwise no whitespace at either end |
| Text.TrimIsInfix | server/routes/notes.ts:82 | `trim` removes only leading and trailing whitespace |
| Text.TrimIdempotent | server/routes/notes.ts:82 | trimming twice is trimming once |
| Text.TrimmedOrAbsent | server/routes/notes.ts:83-93 | `s?.trim() \|\| undefined`: absent exactly for a missing or blank value, else the non-empty trimmed value |
| Text.TruthyOrAbsent | server/routes/contact.ts:38-39 | `s ? s : undefined`: absent exactly for a missing or empty value, else the value itself |
| Paths.BaseName | server/routes/notes.ts:79 | `path.basename` contains no `/` |
| Paths.BaseNameIsLastSegment | server/routes/notes.ts:79 | `path.basename` is the longest `/`-free suffix of the path once its trailing slashes are removed |
| Paths.ExtName | server/routes/notes.ts:22 | `path.extname` has no `/` and is the base name's suffix from its last `.`; it is empty exactly when the base name is `..` or has no `.` after its first character |
| Paths.SegmentExt | server/routes/notes.ts:22 | a segment's extension is its suffix from its last `.`, shorter than the segment; it is empty exactly when the segment is `..` or has no `.` after its first character |
| Paths.StripTrailingSlashes | server/routes/notes.ts:79 | the result is a prefix that does not end in `/`, everything cut off is `/`, and a path without a trailing `/` is unchanged |
| Paths.StemFacts | server/routes/notes.ts:23 | a generated stem starts with a digit and holds no `/` or `.` |
| Paths.StemStamp | server/routes/notes.ts:23 | the part of a stem before its first `-` is the stamp's numeral, and parses back to the stamp |
| Paths.StoredNameParts | server/routes/notes.ts:21-79 | a generated name is its own base name, its parsed name is the stem, and stem plus extension gives the name back |
| Text.ParseNatToString | server/routes/notes.ts:23 | a numeral parses back to the number it shows |
| ContactRoute.ReadContacts | server/routes/contact.ts:16-22 | the stored entries, or none when the file is missing or unparseable |
| ContactRoute.NewEntry | server/routes/contact.ts:34-42 | name, email and message verbatim; subject and category absent iff falsy, else kept; id `${Date.now()}-${random}`; `createdAt` now |
| ContactRoute.CategoryLabel | server/routes/contact.ts:51-52 | the category with `-` as its fallback: `-` exactly when the category is absent, empty or itself `-`; otherwise the category; never empty |
| ContactRoute.MailSubject | server/routes/contact.ts:50 | `[Contact] ` followed by the subject when given, else `New message from <name>` |
| ContactRoute.MailText | server/routes/contact.ts:51 | the text is exactly the line `From: <name> <<email>>`, the line `Category: <category or ->` and a blank line, then the message verbatim |
| ContactRoute.HtmlMessage | server/routes/contact.ts:52 | no newline remains; a message without one is unchanged, and a lone newline becomes `<br/>` |
| ContactRoute.HtmlLineBreak | server/routes/contact.ts:52 | each newline between two pieces of the message becomes `<br/>` between their converted forms |
| ContactRoute.MailHtml | server/routes/contact.ts:52 | the HTML is exactly the sender paragraph (email between `&lt;` and `&gt;`), the category paragraph, then the paragraph holding the converted message |
| ContactRoute.ContactMail | server/routes/contact.ts:50-53 | the mail carries the tagged subject and the text and HTML bodies; its reply address is the sender's email, and the sender's name is passed on for the relay's From display name |
| ContactRoute.HandleContact | server/routes/contact.ts:28-61 | 400 iff the name, email or message is missing or empty, with the file unchanged and no mail; otherwise 200 with one entry appended, the mail for that entry handed to the relay, and the relay's preview link, or none when the relay failed |
| ContactRoute.AcceptedAppendsOne | server/routes/contact.ts:44-46 | a valid submission keeps every earlier entry in place and adds exactly one after them |
| ContactRoute.RelayNeverDecides | server/routes/contact.ts:48-60 | what the relay does never changes the status, the file, the mail or whether the reply is accepted |
| ContactRoute.EntryIdCarriesStamp | server/routes/contact.ts:35 | the entry id starts with the creation stamp, which reads back from it |
| Text.ReplaceChar | server/routes/contact.ts:52 | replacing a character by text without it leaves none; the empty string stays empty, the character alone becomes the replacement, and any other single character is kept |
| Text.ReplaceCharAppend | server/routes/contact.ts:52 | replacement distributes over concatenation |
| Text.ReplaceCharAbsent | server/routes/contact.ts:52 | a string without the character is unchanged |
| CoursesPage.Tenths | client/pages/Courses.tsx:9-10 | `toFixed(1)` of `bytes / unit` as tenths: the nearest, the larger on a tie |
| CoursesPage.FormatSize | client/pages/Courses.tsx:7-11 | B iff under 1024 with the exact count; KB iff under 1024·1024; MB otherwise; KB and MB carry one decimal equal to the rounded tenths |
| CoursesPage.SmallSizeReadsBack | client/pages/Courses.tsx:8 | a size under 1024 is shown as `<n> B`, and the number reads back from the text |
| CoursesPage.Render | client/pages/Courses.tsx:8-10 | the size text starts with a digit and ends with a space and the unit |
| CoursesPage.LargeSizeReadsBack | client/pages/Courses.tsx:9-10 | a size of 1024 bytes or more reads as digits, `.`, one digit, a space and `KB` or `MB`; the digits before and after the `.` read back as the rounded count of tenths of the unit |
| CoursesPage.OnListed | client/pages/Courses.tsx:22-27 | the listing replaces the notes; a failed fetch leaves none; nothing else changes |
| CoursesPage.FieldText | client/pages/Courses.tsx:52-53 | the trimmed field is empty iff the field is missing or blank |
| CoursesPage.SentFields | client/pages/Courses.tsx:51-63 | the form's fields go as typed; owner email and name are added only when the user has non-empty ones |
| CoursesPage.OnSubmit | client/pages/Courses.tsx:43-69 | checks in order (signed in, title, course, non-empty file), each with its own message and no request; a request is sent iff all pass, and then exactly one POST with the page pending |
| CoursesPage.OnUploadReply | client/pages/Courses.tsx:70-86 | a stored note goes in front with the others kept; otherwise the server's text or `Upload failed` is shown and the notes are unchanged; pending ends either way |
| CoursesPage.UploadPrepends | client/pages/Courses.tsx:80 | after a stored upload the list is the new note followed by exactly the old list |
| CoursesPage.VisibleIsBothFilters | client/pages/Courses.tsx:151-153 | the displayed notes are exactly those passing the course filter and the case-insensitive subject search, in list order, a subsequence of the notes |
| CoursesPage.NoFiltersShowAll | client/pages/Courses.tsx:151-153 | with no course and no search text every note is shown, in order |
| Text.ToLower | client/pages/Courses.tsx:153 | lower-casing keeps the length and maps each character |
| Text.ContainsIff | client/pages/Courses.tsx:153 | `includes` holds iff the needle starts at some position |
| Seqs.Filter | client/pages/Courses.tsx:152-153 | `filter` keeps each element satisfying the predicate as many times as it occurs, and drops every other |
| Seqs.FilterMembers | client/pages/Courses.tsx:152-153 | an element is in the filtered list exactly when it is in the list and passes the predicate |
| Seqs.FilterIsSubsequence | client/pages/Courses.tsx:152-153 | a filtered list is a subsequence of the original |
| Seqs.FilterTwice | client/pages/Courses.tsx:152-153 | two filters in a row are one filter on the conjunction |
| Seqs.FilterAll | client/pages/Courses.tsx:152-153 | a filter every element passes changes nothing |
| ProfilePage.OnUserChange | client/pages/Profile.tsx:14-25 | signed out: the page goes to `/login` and fetches nothing; signed in: it fetches the listing and does not navigate |
| ProfilePage.MyUploads | client/pages/Profile.tsx:22-48 | exactly the listed notes whose owner email equals the user's, each as often as it is listed, in listing order |
| ProfilePage.MyUploadsStable | client/pages/Profile.tsx:22-48 | filtering the user's uploads again changes nothing |
| ProfilePage.SaveEdit | client/pages/Profile.tsx:61-67 | a blank input sends nothing and ends edit mode; otherwise a PATCH holding only the trimmed title is sent, and edit mode ends and the list refreshes iff that fetch settled; a rejected fetch leaves the note in edit mode and refreshes nothing |
| ProfilePage.RenameSendsTrimmedTitle | client/pages/Profile.tsx:62-64 | every PATCH a rename sends targets the id and carries only a non-empty, already trimmed title |
| ProfilePage.OnProfileSave | client/pages/Profile.tsx:39-45 | each empty form field falls back to the user's current value, and one profile update is made |
| ProfilePage.ProfileSaveKeepsName | client/pages/Profile.tsx:42-44 | for a signed-in user the saved payload always carries a name |
| ProfilePage.ProfileSaveWithoutEmail | client/pages/Profile.tsx:43 | a user without an email who leaves the field empty sends the text `undefined` |
| ProfilePage.OnDelete | client/pages/Profile.tsx:51-54 | one DELETE for the id, followed by a refresh iff that fetch settled rather than rejected |
| ProfilePage.OnAvatarChange | client/pages/Profile.tsx:29-37 | no file, no call; otherwise one update with only the avatar |
| ViewerPage.OnMount | EduLearn-main/client/pages/Viewer.tsx:11-14 | without an id nothing is fetched; otherwise the note is requested |
| ViewerPage.OnFetched | EduLearn-main/client/pages/Viewer.tsx:13 | a failed fetch shows nothing (the loading message); a note body is loaded; any other JSON body is held as a non-note object |
| ViewerPage.ModeOf | EduLearn-main/client/pages/Viewer.tsx:31-56 | PDF iff the type contains `pdf`; image iff not PDF and it starts with `image/`; otherwise download only |
| ViewerPage.Mode | EduLearn-main/client/pages/Viewer.tsx:27-32 | no preview exactly while loading; a non-note object previews as download only |
| ViewerPage.PdfTakesPriority | EduLearn-main/client/pages/Viewer.tsx:43-45 | a type that is both `pdf` and `image/` previews as a PDF |
| ViewerPage.OnDownload | EduLearn-main/client/pages/Viewer.tsx:16-20 | nothing while no note is shown; otherwise one view POST for the note's id, then the browser leaves for its url |
| ViewerPage.DownloadCountsOneView | EduLearn-main/client/pages/Viewer.tsx:18 | a download sends exactly one request: the view of the note on screen |
| ViewerPage.GoBack | EduLearn-main/client/pages/Viewer.tsx:22-25 | back in history iff its length is above 1, else to `/courses` |
| ViewerPage.OnePagePdfUnreachable | client/components/viewer/PdfPreview.tsx:30 | a loaded one-page PDF, as written, leaves no download control; with the corrected gate it has one |
| ViewerPage.DownloadAlwaysReachable | EduLearn-main/client/pages/Viewer.tsx:43-56 | with the corrected preview, every note on screen has a download control, provided that a PDF has loaded with at least one page |
| ViewerPage.PdfWithoutPageUnreachable | EduLearn-main/client/pages/Viewer.tsx:43-44 | a PDF that failed to load or has no page leaves no download control, as written and corrected alike |
| PdfPreview.PagesToRender | client/components/viewer/PdfPreview.tsx:16 | `min(2, numPages)` |
| PdfPreview.RunAppend | client/components/viewer/PdfPreview.tsx:19-53 | running two traces in a row is running their concatenation |
| PdfPreview.PagesAccepted | client/components/viewer/PdfPreview.tsx:19-49 | the page loop is accepted: pages in order, each rendered before the next starts, the gate once after its page |
| PdfPreview.TraceAccepted | client/components/viewer/PdfPreview.tsx:16-50 | a whole run is accepted and ends with all pages done, the gate counted, and ready iff still mounted |
| PdfPreview.RenderTraceOrdered | client/components/viewer/PdfPreview.tsx:16-50 | as written: cleared first, `min(2, n)` pages in order, one gate iff two pages were rendered, ready at the end iff still mounted |
| PdfPreview.OnePageHasNoGate | client/components/viewer/PdfPreview.tsx:30 | a one-page document, as written, gets no gate |
| PdfPreview.GatedTraceOrdered | client/components/viewer/PdfPreview.tsx:30-48 | the corrected run obeys the same rules with one gate iff a page was rendered |
| PdfPreview.GateAlwaysAdded | client/components/viewer/PdfPreview.tsx:30-48 | the corrected preview of any document with a page adds the gate |
| PdfPreview.GateInPages | client/components/viewer/PdfPreview.tsx:19-48 | a loop whose gate page is among its pages emits the gate |
| PdfPreview.GateFollowsItsPage | client/components/viewer/PdfPreview.tsx:29-30 | every gate comes right after the render of its page |
| PdfPreview.LoadingUntilReady | client/components/viewer/PdfPreview.tsx:50-60 | the loading text stays iff the document failed to load or the component was unmounted first |
| PdfPreview.NoReadyInPages | client/components/viewer/PdfPreview.tsx:19-49 | the page loop never sets ready |
| AuthContext.EmailLocalPart | EduLearn-main/client/context/AuthContext.tsx:27 | `email?.split("@")[0]`: absent iff there is no email; otherwise the prefix of it before its first `@` (followed by `@` unless it is the whole email) |
| AuthContext.NameFromEmail | EduLearn-main/client/context/AuthContext.tsx:27 | without a metadata name, `local@domain` with a non-empty local part gives the local part as the name |
| AuthContext.DisplayName | EduLearn-main/client/context/AuthContext.tsx:27 | the metadata name if non-empty, else the email's local part if non-empty, else `User`; never empty |
| AuthContext.AvatarOf | EduLearn-main/client/context/AuthContext.tsx:28 | metadata `avatarUrl`, else `avatar_url`, else absent; never empty |
| AuthContext.MapSessionUser | EduLearn-main/client/context/AuthContext.tsx:24-30 | no session user maps to no user; id and email are copied unchanged, with the name and avatar fallbacks |
| AuthContext.UpdatePayload | EduLearn-main/client/context/AuthContext.tsx:68-73 | name and avatar go under `data` and the email at the top level, each iff non-empty |
| AuthContext.MergeMetadata | EduLearn-main/client/context/AuthContext.tsx:69-71 | the provider's merge keeps the id, the email and the other metadata |
| AuthContext.UpdateThenMap | EduLearn-main/client/context/AuthContext.tsx:24-73 | after an update the re-mapped user shows each non-empty value sent and keeps the rest |
| ClientServer.Received | server/routes/notes.ts:54-56 | the handler receives a file part iff a file was chosen, with its name, size and type |
| ClientServer.SubmitStored | client/pages/Courses.tsx:62-80 | a form the page sends, from a user with an email, is stored with the trimmed title and owner, and then shown first |
| ClientServer.SubmitWithoutEmailRefused | client/pages/Courses.tsx:62-77 | a user without an email passes the page's checks but gets 401, nothing stored, and the server's text shown |
| ClientServer.CheckOrdersDiffer | client/pages/Courses.tsx:54-68 | with no file and a blank title the page reports the title, while the server would report the missing file |
| ClientServer.RenameStored | client/pages/Profile.tsx:61-66 | a rename stores exactly the trimmed title and leaves the description |
| ClientServer.ViewerDownloadCounts | EduLearn-main/client/pages/Viewer.tsx:13-19 | the viewer loads the first record with the id, and its download bumps that record's count |
| ClientServer.ViewerUnknownId | EduLearn-main/client/pages/Viewer.tsx:13-27 | an unknown id leaves the 404 body on screen, not the loading message |

## Left out

- File-system faults:
  - a failing `writeFileSync` or `readFileSync` other than a missing or unparseable file;
  - directory creation;
  - a failing `unlinkSync`.

  The uploads directory is a set of names, and an unlink that fails is treated like one that succeeds. Its error is ignored in the code, so only the set differs.
- Concurrency. Two requests that read and write the notes file at the same time can lose an update. The code has no locking, and the model is sequential.
- `localeCompare` is modelled as comparison by character code. For the ISO-8601 timestamps the server writes, the two orders agree.
- `toLowerCase` lowers ASCII letters only. Other case mappings are not modelled.
- CoursesPage.FormatSize models `toFixed(1)` exactly only for sizes below 2^53. The quotient of a size by 1024 or 1024·1024 is exact in floating point there.
- JSON values that are not strings are left out. Where the code reads a field that should be a string, a number, boolean or object is not modelled.
- NotesRoutes.Bump: a stored `views` that is a boolean or a fraction is not modelled. A count is missing, `null`, a whole number or a string. In JavaScript `true + 1` is 2 and `1.5 + 1` is 2.5, and the listing (`server/routes/notes.ts:48`) would report the fraction as it is and the boolean as 0.
- Stored records always carry their required fields. A record without `uploadedAt` makes `localeCompare` throw in the listing (`server/routes/notes.ts:49`), so the request fails with a 500. The model cannot express a missing required field.
- A notes file that parses to something other than an array is treated like an unparseable one.
- NotesRoutes.ReadNotes: a notes array holding `null` makes the defaults at `server/routes/notes.ts:35` throw, so the code reads the whole file as no records. The model's notes file holds records only, so that case cannot be expressed.
- NotesRoutes.Bump: view counts are unbounded integers. A JavaScript number stops growing at 2^53 (`server/routes/notes.ts:133`), which the model does not reproduce.
- ContactRoute.HandleContact: a contacts file holding JSON that is not an array makes `list.push` throw at `server/routes/contact.ts:45`, and no response is sent. The model's contacts file is missing, unreadable or an array of entries, so it always answers.
- The identity provider's calls are not modelled:
  - `getSession`, `onAuthStateChange`, `signIn`, `signUp`, `signOut` and `signInWithOAuth`;
  - the confirmation flow of an email change.

  `MergeMetadata` stands for the provider applying the metadata part of an update.
- The mail transport in `EduLearn-main/server/mailer.ts` is left out. It is an input (`RelayOutcome`).
- The missing HTML escaping in the contact mail is not modelled. The message is inserted as is.
- ViewerPage.DownloadAlwaysReachable: a PDF whose load fails, or which has no page, gets no download control even with the corrected gate. The viewer has no other control for PDFs (`EduLearn-main/client/pages/Viewer.tsx:43-44`), and `ViewerPage.PdfWithoutPageUnreachable` states this case.
- PdfPreview.RenderTrace: overlapping runs of the preview's effect are not modelled. The effect re-runs whenever `onDownload` changes (`client/components/viewer/PdfPreview.tsx:55`), and the viewer creates a new `onDownload` on every render (`EduLearn-main/client/pages/Viewer.tsx:16`). A second run then clears the container while the first keeps appending to it, because only `setReady` checks `mounted`. The trace is one run from start to finish.
- pdf.js is left out: loading, page rendering and canvas sizing. A page whose render fails partway is not modelled, and the trace assumes each awaited render settles.
- The DOM and the styling of the gate are left out. The gate's button calling `onDownload` is taken as given in `ViewerPage.DownloadReachable`.
- `FileReader` is left out. The avatar handler receives the data URL it would produce.
- The library page's download link posts a view through `trackView` (a beacon or a keep-alive `fetch`) before following the link. That transport is not modelled; the server side of the view is `NotesRoutes.AddView`.
- `form.reset()`, the focus timer in `startEdit`, and rendering markup are not modelled.
- The contact page client (`EduLearn-main/client/pages/Contact.tsx`) is not part of this model. It repeats the server's required-field check.
- The profile page's sign-out button is not modelled.
- The routing tables and the presentation-only components are not part of this model.
- The clock and randomness are parameters: `Date.now()`, `Math.random()` and `new Date().toISOString()`. The stored filename is an input of `UploadNote`. `Paths.StoredName` states how the middleware forms it.

## Findings

| source | as written | input that shows it | evidently intended | confidence | as-written member | corrected member |
|---|---|---|---|---|---|---|
| client/components/viewer/PdfPreview.tsx:30 | the gate is added only after page `i === 2`, so a PDF with one page never gets the gate or its "Download to continue" button, and the PDF viewer has no other download control | `numPages = 1` | add the gate after the last page rendered (`i === pagesToRender`) | not executed | PdfPreview.OnePageHasNoGate | PdfPreview.GatedTraceOrdered |

=== FILE: api.dfy ===
/**
 * The records the server stores and the client displays
 * (`NoteItem` and `ContactSubmission` in the shared API types).
 * An optional TypeScript property is an `Option`: `None` when the key is absent.
 */
module Api {
  import opened Maybe

  /**
   * The JSON value under a stored note's `views` key. Records written by
   * older versions may lack it, and a hand-edited file may hold `null` or a string.
   */
  datatype Views = Missing | Null | Num(count: int) | Text(text: string)

  /** One uploaded document's metadata. */
  datatype Note = Note(
    id: string,
    title: string,
    description: Option<string>,
    filename: string,
    originalName: string,
    size: nat,
    mimeType: string,
    url: string,
    uploadedAt: string,
    ownerEmail: Option<string>,
    ownerName: Option<string>,
    subject: Option<string>,
    course: Option<string>,
    views: Views)

  /** One message sent through the contact form. */
  datatype ContactSubmission = ContactSubmission(
    id: string,
    name: string,
    email: string,
    subject: Option<string>,
    category: Option<string>,
    message: string,
    createdAt: string)
}

=== FILE: auth_context.dfy ===
/**
 * The signed-in user as the client pages see it: how the identity
 * provider's session user is mapped, and what a profile update sends back.
 * The provider calls themselves are not modelled; their inputs and outputs
 * are plain values here.
 */
module AuthContext {
  import opened Maybe
  import opened Text

  /**
   * The provider's session user, reduced to what the mapping reads: the id,
   * the email (a provider account may lack one), and three optional
   * metadata keys (`name`, `avatarUrl`, `avatar_url`). A session without
   * metadata has all three absent.
   */
  datatype SessionUser = SessionUser(
    id: string,
    email: Option<string>,
    metaName: Option<string>,
    metaAvatarUrl: Option<string>,
    metaAvatarUnderscore: Option<string>)

  /** `AuthUser`: the user the pages work with. */
  datatype AuthUser = AuthUser(id: string, name: string, email: Option<string>, avatarUrl: Option<string>)

  const DefaultName := "User"

  /** `u.email?.split("@")[0]`: the part of the email before its first `@`. */
  function EmailLocalPart(email: Option<string>): (r: Option<string>)
    ensures r.None? <==> email.None?
    ensures r.Some? ==> '@' !in r.value && StartsWith(email.value, r.value)
    ensures r.Some? && |r.value| < |email.value| ==> email.value[|r.value|] == '@'
  {
    match email
    case None => None
    case Some(e) => Some(BeforeFirst(e, '@'))
  }

  /**
   * The display name: the metadata name when non-empty, else the email's
   * local part when non-empty, else `"User"`.
   */
  function DisplayName(u: SessionUser): (name: string)
    ensures name != ""
    ensures Truthy(u.metaName) ==> name == u.metaName.value
    ensures !Truthy(u.metaName) && Truthy(EmailLocalPart(u.email)) ==> name == EmailLocalPart(u.email).value
    ensures !Truthy(u.metaName) && !Truthy(EmailLocalPart(u.email)) ==> name == DefaultName
  {
    if Truthy(u.metaName) then u.metaName.value
    else if Truthy(EmailLocalPart(u.email)) then EmailLocalPart(u.email).value
    else DefaultName
  }

  /** `meta.avatarUrl || meta.avatar_url || undefined`. */
  function AvatarOf(u: SessionUser): (r: Option<string>)
    ensures r.Some? ==> r.value != ""
    ensures Truthy(u.metaAvatarUrl) ==> r == u.metaAvatarUrl
    ensures !Truthy(u.metaAvatarUrl) ==> r == TruthyOrAbsent(u.metaAvatarUnderscore)
  {
    if Truthy(u.metaAvatarUrl) then u.metaAvatarUrl else TruthyOrAbsent(u.metaAvatarUnderscore)
  }

  /** `mapSessionUser`: no session user maps to no user; the id and email are copied unchanged. */
  function MapSessionUser(u: Option<SessionUser>): (r: Option<AuthUser>)
    ensures r.None? <==> u.None?
    ensures u.Some? ==>
      && r.value.id == u.value.id
      && r.value.email == u.value.email
      && r.value.name == DisplayName(u.value)
      && r.value.avatarUrl == AvatarOf(u.value)
  {
    match u
    case None => None
    case Some(s) => Some(AuthUser(s.id, DisplayName(s), s.email, AvatarOf(s)))
  }

  /**
   * Without a metadata name, an address `local@domain` with a non-empty
   * local part gives the local part as the name.
   */
  lemma NameFromEmail(u: SessionUser, local: string, domain: string)
    requires !Truthy(u.metaName)
    requires local != [] && '@' !in local && u.email == Some(local + "@" + domain)
    ensures MapSessionUser(Some(u)).value.name == local
  {
    BeforeFirstOf(local, '@', domain);
  }

  /** The arguments of `updateProfile`; a page passes any subset. */
  datatype ProfileUpdate = ProfileUpdate(name: Option<string>, email: Option<string>, avatarUrl: Option<string>)

  /**
   * What `updateProfile` sends to the provider: the metadata keys `name` and
   * `avatarUrl` under `data`, and `email` at the top level; each only when non-empty.
   */
  datatype UserUpdate = UserUpdate(dataName: Option<string>, dataAvatarUrl: Option<string>, email: Option<string>)

  function UpdatePayload(args: ProfileUpdate): (p: UserUpdate)
    ensures p.dataName.None? <==> !Truthy(args.name)
    ensures p.dataAvatarUrl.None? <==> !Truthy(args.avatarUrl)
    ensures p.email.None? <==> !Truthy(args.email)
    ensures p.dataName.Some? ==> p.dataName == args.name
    ensures p.dataAvatarUrl.Some? ==> p.dataAvatarUrl == args.avatarUrl
    ensures p.email.Some? ==> p.email == args.email
  {
    UserUpdate(TruthyOrAbsent(args.name), TruthyOrAbsent(args.avatarUrl), TruthyOrAbsent(args.email))
  }

  /**
   * The provider merges the sent `data` keys into the user's metadata,
   * replacing the keys it carries and keeping the rest. (An email change
   * goes through the provider's confirmation and is not applied here.)
   */
  function MergeMetadata(u: SessionUser, p: UserUpdate): (r: SessionUser)
    ensures r.id == u.id && r.email == u.email && r.metaAvatarUnderscore == u.metaAvatarUnderscore
  {
    u.(metaName := if p.dataName.Some? then p.dataName else u.metaName,
       metaAvatarUrl := if p.dataAvatarUrl.Some? then p.dataAvatarUrl else u.metaAvatarUrl)
  }

  /**
   * After a profile update the re-mapped user shows each non-empty value
   * sent, and keeps what it showed for each value left empty.
   */
  lemma UpdateThenMap(u: SessionUser, args: ProfileUpdate)
    ensures var before := MapSessionUser(Some(u)).value;
      var after := MapSessionUser(Some(MergeMetadata(u, UpdatePayload(args)))).value;
      && after.id == before.id && after.email == before.email
      && (Truthy(args.name) ==> after.name == args.name.value)
      && (!Truthy(args.name) ==> after.name == before.name)
      && (Truthy(args.avatarUrl) ==> after.avatarUrl == args.avatarUrl)
      && (!Truthy(args.avatarUrl) ==> after.avatarUrl == before.avatarUrl)
  {
  }
}

=== FILE: client_api.dfy ===
/**
 * What the client pages ask of the outside world: requests to the notes API,
 * navigations, and calls into the identity provider. A page handler is
 * modelled as the sequence of these effects it issues, in order.
 */
module ClientApi {
  import opened Maybe
  import opened NotesRoutes
  import opened AuthContext

  /** A file chosen in a form: its name, size in bytes and MIME type. */
  datatype ChosenFile = ChosenFile(name: string, size: nat, mimeType: string)

  /** The requests the pages send to the notes API. */
  datatype ApiRequest =
    | GetNotes                                       // GET /api/notes
    | GetNoteById(id: string)                        // GET /api/notes/:id
    | PostNote(fields: UploadFields, file: Option<ChosenFile>)  // POST /api/notes (multipart)
    | PatchNote(id: string, body: PatchBody)         // PATCH /api/notes/:id
    | DeleteNoteById(id: string)                     // DELETE /api/notes/:id
    | PostView(id: string)                           // POST /api/notes/:id/view

  datatype Effect =
    | Send(request: ApiRequest)
    | Navigate(path: string)                         // client-side route change
    | HistoryBack                                    // navigate(-1)
    | LeaveTo(href: string)                          // window.location.href = href
    | CallUpdateProfile(args: ProfileUpdate)

  /** The requests among `effects`, in order. */
  function Requests(effects: seq<Effect>): (r: seq<ApiRequest>)
    ensures |r| <= |effects|
    ensures forall q :: q in r <==> Send(q) in effects
  {
    if effects == [] then []
    else (if effects[0].Send? then [effects[0].request] else []) + Requests(effects[1..])
  }

  /** Collecting the requests of two effect lists one after the other. */
  lemma {:induction false} RequestsAppend(a: seq<Effect>, b: seq<Effect>)
    ensures Requests(a + b) == Requests(a) + Requests(b)
  {
    if a == [] {
      assert a + b == b;
    } else {
      assert (a + b)[0] == a[0];
      assert (a + b)[1..] == a[1..] + b;
      RequestsAppend(a[1..], b);
    }
  }
}

=== FILE: client_server.dfy ===
/**
 * The pages and the notes API together: what the server does with the
 * requests the pages send, and what the pages then show.
 */
module ClientServer {
  import opened Maybe
  import opened Text
  import opened Api
  import opened NotesRoutes
  import opened AuthContext
  import opened ClientApi
  import opened CoursesPage
  import opened ProfilePage
  import opened ViewerPage

  /**
   * The file part as the handler receives it: the upload middleware has
   * stored the chosen file under `stored`. No file chosen, no file part.
   */
  function Received(file: Option<ChosenFile>, stored: string): (r: Option<UploadedFile>)
    ensures r.None? <==> file.None?
    ensures r.Some? ==> r.value == UploadedFile(file.value.name, stored, file.value.size, file.value.mimeType)
  {
    match file
    case None => None
    case Some(f) => Some(UploadedFile(f.name, stored, f.size, f.mimeType))
  }

  /** The server's answer to one request, with `now` and the stored name supplied by the environment. */
  function Serve(d: Disk, q: ApiRequest, now: string, stored: string): Outcome {
    match q
    case GetNotes => ListNotes(d)
    case GetNoteById(id) => GetNote(d, id)
    case PostNote(fields, file) => UploadNote(d, UploadRequest(Received(file, stored), fields), now)
    case PatchNote(id, body) => UpdateNote(d, id, body)
    case DeleteNoteById(id) => DeleteNote(d, id)
    case PostView(id) => AddView(d, id)
  }

  /**
   * A form the page lets through, from a user with a usable email, is
   * stored by the server, and the page then shows the stored note first.
   */
  lemma SubmitStored(st: CoursesState, user: AuthUser, form: UploadForm, d: Disk, now: string, stored: string)
    requires !Blank(user.email)
    requires OnSubmit(st, Some(user), form).effects != []
    ensures var step := OnSubmit(st, Some(user), form);
      var out := Serve(d, step.effects[0].request, now, stored);
      && out.response.status == 200
      && out.response.body.note.title == Trim(form.title.value)
      && out.response.body.note.ownerEmail == Some(Trim(user.email.value))
      && OnUploadReply(step.state, Uploaded(out.response.body.note)).notes == [out.response.body.note] + st.notes
  {
  }

  /**
   * A user without an email passes every check of the page, but the server
   * refuses the upload with 401, and the page shows the server's text.
   */
  lemma SubmitWithoutEmailRefused(st: CoursesState, user: AuthUser, form: UploadForm, d: Disk, now: string, stored: string)
    requires user.email.None?
    requires OnSubmit(st, Some(user), form).effects != []
    ensures var step := OnSubmit(st, Some(user), form);
      var out := Serve(d, step.effects[0].request, now, stored);
      && out.response == Response(401, PlainText(LoginRequired))
      && out.disk.notes == d.notes
      && OnUploadReply(step.state, NotOk(LoginRequired)).error == Some(LoginRequired)
  {
  }

  /**
   * The page and the server check in different orders: with no file and a
   * blank title the page reports the title, while the server, were the
   * form sent, would report the missing file.
   */
  lemma CheckOrdersDiffer(st: CoursesState, user: AuthUser, form: UploadForm, d: Disk, now: string, stored: string)
    requires Blank(form.title) && form.file.None?
    ensures OnSubmit(st, Some(user), form).state.error == Some(TitleRequired)
    ensures Serve(d, PostNote(SentFields(user, form), form.file), now, stored).response == Response(400, Failure(FileRequired))
  {
  }

  /**
   * A rename sent by the profile page stores exactly the trimmed title the
   * user typed and leaves the description alone.
   */
  lemma RenameStored(id: string, input: Option<string>, settled: bool, d: Disk)
    requires !Blank(input)
    requires FirstIndex(ReadNotes(d.notes), id).Some?
    ensures var q := SaveEdit(id, input, settled).effects[0].request;
      var notes := ReadNotes(d.notes);
      var i := FirstIndex(notes, id).value;
      var out := Serve(d, q, "", "");
      && out.response.status == 200
      && out.response.body.note.title == Trim(input.value)
      && out.response.body.note.description == notes[i].description
  {
  }

  /**
   * Downloading from the viewer counts the view on the record the viewer
   * loaded: the first record with the requested id.
   */
  lemma ViewerDownloadCounts(d: Disk, id: string)
    requires FirstIndex(ReadNotes(d.notes), id).Some?
    ensures var notes := ReadNotes(d.notes);
      var i := FirstIndex(notes, id).value;
      var shown := OnFetched(Some(Serve(d, GetNoteById(id), "", "").response));
      && shown == Loaded(notes[i])
      && Serve(d, OnDownload(shown)[0].request, "", "").response == Response(200, OkViews(Bump(notes[i].views)))
  {
  }

  /** Asking the viewer for an id the store lacks leaves the error body on screen, not the loading message. */
  lemma ViewerUnknownId(d: Disk, id: string)
    requires FirstIndex(ReadNotes(d.notes), id).None?
    ensures OnFetched(Some(Serve(d, GetNoteById(id), "", "").response)) == ErrorObject
  {
  }
}

=== FILE: contact_route.dfy ===
/**
 * The contact form handler: validates a submission, appends it to the
 * contacts file, and hands a notification mail to the relay. The clock and
 * the random id part are parameters, and so is what the relay reports.
 */
module ContactRoute {
  import opened Maybe
  import opened Text
  import opened Api
  import opened Paths

  /** The contacts file as the handler finds it. */
  datatype ContactsFile =
    | NoContacts                              // not written yet
    | BadContacts                             // unreadable or not JSON
    | Contacts(entries: seq<ContactSubmission>)

  /** The JSON body of the request; `None` when the key is absent. */
  datatype ContactBody = ContactBody(
    name: Option<string>,
    email: Option<string>,
    subject: Option<string>,
    category: Option<string>,
    message: Option<string>)

  /** What the mail relay reports: a preview link (possibly none), or a thrown error. */
  datatype RelayOutcome = Delivered(previewUrl: Option<string>) | RelayFailed

  /**
   * The mail handed to the relay: replies go to the sender's address, and the
   * sender's name is the display name the relay puts on its own From address.
   */
  datatype Mail = Mail(subject: string, text: string, html: string, replyTo: string, fromName: string)

  datatype ContactReply =
    | Rejected(error: string)                 // 400 { ok: false, error }
    | Accepted(previewUrl: Option<string>)    // { ok: true, previewUrl }

  /** The response, the contacts file afterwards, and the mail handed to the relay, if any. */
  datatype ContactOutcome = ContactOutcome(status: nat, reply: ContactReply, file: ContactsFile, mail: Option<Mail>)

  const MissingFields := "name, email, and message are required"

  /** `readContacts`: the stored entries, or none when the file cannot be read or parsed. */
  function ReadContacts(f: ContactsFile): (entries: seq<ContactSubmission>)
    ensures f.Contacts? ==> entries == f.entries
    ensures !f.Contacts? ==> entries == []
  {
    if f.Contacts? then f.entries else []
  }

  /** The name, email and message a submission must carry, none of them empty. */
  predicate Valid(body: ContactBody) {
    Truthy(body.name) && Truthy(body.email) && Truthy(body.message)
  }

  /**
   * The stored entry: name, email and message verbatim (not trimmed),
   * subject and category only when truthy, the id `${Date.now()}-${random}`.
   */
  function NewEntry(body: ContactBody, stamp: nat, rand: string, now: string): (e: ContactSubmission)
    requires Valid(body)
    ensures e.name == body.name.value && e.email == body.email.value && e.message == body.message.value
    ensures e.subject.None? <==> !Truthy(body.subject)
    ensures e.subject.Some? ==> e.subject == body.subject
    ensures e.category.None? <==> !Truthy(body.category)
    ensures e.category.Some? ==> e.category == body.category
    ensures e.id == Stem(stamp, rand) && e.createdAt == now
  {
    ContactSubmission(
      id := Stem(stamp, rand),
      name := body.name.value,
      email := body.email.value,
      subject := TruthyOrAbsent(body.subject),
      category := TruthyOrAbsent(body.category),
      message := body.message.value,
      createdAt := now)
  }

  /** `entry.category || "-"`: an absent or empty category shows as `-`. */
  function CategoryLabel(e: ContactSubmission): (r: string)
    ensures r == "-" <==> e.category.None? || e.category.value == "" || e.category.value == "-"
    ensures e.category.Some? && e.category.value != "" ==> r == e.category.value
    ensures r != ""
  {
    match e.category
    case Some(c) => if c == "" then "-" else c
    case None => "-"
  }

  const SubjectTag := "[Contact] "

  /** The mail subject: the submitted subject after the tag, or a default naming the sender. */
  function MailSubject(body: ContactBody, e: ContactSubmission): (r: string)
    ensures |SubjectTag| <= |r| && r[..|SubjectTag|] == SubjectTag
    ensures Truthy(body.subject) ==> r[|SubjectTag|..] == body.subject.value
    ensures !Truthy(body.subject) ==> r[|SubjectTag|..] == "New message from " + e.name
  {
    var rest := if Truthy(body.subject) then body.subject.value else "New message from " + e.name;
    assert (SubjectTag + rest)[|SubjectTag|..] == rest;
    SubjectTag + rest
  }

  /** The plain-text mail: a sender line, a category line, a blank line, then the message verbatim. */
  function MailText(e: ContactSubmission): (r: string)
    ensures var from := "From: " + e.name + " <" + e.email + ">\n";
      var category := "Category: " + CategoryLabel(e) + "\n\n";
      && |r| == |from| + |category| + |e.message|
      && r[..|from|] == from
      && r[|from|..|from| + |category|] == category
      && r[|from| + |category|..] == e.message
  {
    var from := "From: " + e.name + " <" + e.email + ">\n";
    var category := "Category: " + CategoryLabel(e) + "\n\n";
    var r := from + category + e.message;
    assert r[..|from|] == from;
    assert r[|from|..|from| + |category|] == category;
    assert r[|from| + |category|..] == e.message;
    r
  }

  /** The message as the HTML mail shows it: every line break becomes `<br/>`. */
  function HtmlMessage(message: string): (r: string)
    ensures '\n' !in r
    ensures '\n' !in message ==> r == message
    ensures message == "\n" ==> r == "<br/>"
  {
    var r := ReplaceChar(message, '\n', "<br/>");
    assert '\n' !in message ==> r == message by {
      if '\n' !in message {
        ReplaceCharAbsent(message, '\n', "<br/>");
      }
    }
    r
  }

  /** Two lines joined by a line break show as the two lines joined by `<br/>`. */
  lemma HtmlLineBreak(a: string, b: string)
    ensures HtmlMessage(a + "\n" + b) == HtmlMessage(a) + "<br/>" + HtmlMessage(b)
  {
    ReplaceCharAppend(a + "\n", b, '\n', "<br/>");
    ReplaceCharAppend(a, "\n", '\n', "<br/>");
  }

  /** The HTML mail: sender, category and message paragraphs; nothing is escaped. */
  function MailHtml(e: ContactSubmission): (r: string)
    ensures var from := "<p><strong>From:</strong> " + e.name + " &lt;" + e.email + "&gt;</p>";
      var category := "<p><strong>Category:</strong> " + CategoryLabel(e) + "</p>";
      var message := "<p>" + HtmlMessage(e.message) + "</p>";
      && |r| == |from| + |category| + |message|
      && r[..|from|] == from
      && r[|from|..|from| + |category|] == category
      && r[|from| + |category|..] == message
  {
    var from := "<p><strong>From:</strong> " + e.name + " &lt;" + e.email + "&gt;</p>";
    var category := "<p><strong>Category:</strong> " + CategoryLabel(e) + "</p>";
    var message := "<p>" + HtmlMessage(e.message) + "</p>";
    var r := from + category + message;
    assert r[..|from|] == from;
    assert r[|from|..|from| + |category|] == category;
    assert r[|from| + |category|..] == message;
    r
  }

  /**
   * The notification mail for a stored entry: the tagged subject, the text
   * and HTML bodies, the sender's address to reply to and the sender's name
   * to show as the From display name.
   */
  function ContactMail(body: ContactBody, e: ContactSubmission): (m: Mail)
    ensures m.subject == MailSubject(body, e)
    ensures m.text == MailText(e) && m.html == MailHtml(e)
    ensures m.replyTo == e.email && m.fromName == e.name
  {
    Mail(MailSubject(body, e), MailText(e), MailHtml(e), e.email, e.name)
  }

  /**
   * `handleContact`. A submission missing its name, email or message is
   * rejected before the file is touched. Otherwise the entry is appended and
   * written, and only then is the mail attempted; a relay failure is logged
   * and swallowed, so it changes nothing but the absent preview link.
   */
  function HandleContact(f: ContactsFile, body: ContactBody, stamp: nat, rand: string, now: string, relay: RelayOutcome)
    : (out: ContactOutcome)
    ensures out.status == 400 <==> !Valid(body)
    ensures !Valid(body) ==> out == ContactOutcome(400, Rejected(MissingFields), f, None)
    ensures Valid(body) ==>
      && out.status == 200
      && out.file == Contacts(ReadContacts(f) + [NewEntry(body, stamp, rand, now)])
      && out.reply == Accepted(if relay.Delivered? then relay.previewUrl else None)
      && out.mail == Some(ContactMail(body, NewEntry(body, stamp, rand, now)))
  {
    if !Valid(body) then ContactOutcome(400, Rejected(MissingFields), f, None)
    else
      var entry := NewEntry(body, stamp, rand, now);
      var written := Contacts(ReadContacts(f) + [entry]);
      var mail := Some(ContactMail(body, entry));
      match relay
      case Delivered(url) => ContactOutcome(200, Accepted(url), written, mail)
      case RelayFailed => ContactOutcome(200, Accepted(None), written, mail)
  }

  /** A valid submission keeps every earlier entry in place and adds exactly one after them. */
  lemma AcceptedAppendsOne(f: ContactsFile, body: ContactBody, stamp: nat, rand: string, now: string, relay: RelayOutcome)
    requires Valid(body)
    ensures var after := ReadContacts(HandleContact(f, body, stamp, rand, now, relay).file);
      && |after| == |ReadContacts(f)| + 1
      && after[..|ReadContacts(f)|] == ReadContacts(f)
      && after[|after| - 1].message == body.message.value
  {
    var before := ReadContacts(f);
    var after := ReadContacts(HandleContact(f, body, stamp, rand, now, relay).file);
    assert after == before + [NewEntry(body, stamp, rand, now)];
  }

  /** Whatever the relay does, the status, the file and the mail are the same. */
  lemma RelayNeverDecides(f: ContactsFile, body: ContactBody, stamp: nat, rand: string, now: string, a: RelayOutcome, b: RelayOutcome)
    ensures var x := HandleContact(f, body, stamp, rand, now, a);
      var y := HandleContact(f, body, stamp, rand, now, b);
      x.status == y.status && x.file == y.file && x.mail == y.mail && x.reply.Accepted? == y.reply.Accepted?
  {
  }

  /** The entry id starts with the creation stamp's numeral, which reads back as the stamp. */
  lemma EntryIdCarriesStamp(body: ContactBody, stamp: nat, rand: string, now: string)
    requires Valid(body)
    ensures var id := NewEntry(body, stamp, rand, now).id;
      var head := BeforeFirst(id, '-');
      AllDigits(head) && ParseDigits(head) == stamp
  {
    StemStamp(stamp, rand);
  }
}

=== FILE: courses_page.dfy ===
/**
 * The notes library page: the size labels of the listing, the upload form's
 * checks and what it sends, how the reply updates the page, and the course
 * and subject filters over the displayed notes.
 */
module CoursesPage {
  import opened Maybe
  import opened Text
  import opened Api
  import opened Seqs
  import opened NotesRoutes
  import opened AuthContext
  import opened ClientApi

  // ---------------------------------------------------------------------------
  // formatSize
  // ---------------------------------------------------------------------------

  const KiB := 1024
  const MiB := 1024 * 1024

  /**
   * `x.toFixed(1)` for `x == bytes / unit`, as a count of tenths: the
   * nearest one, the larger on a tie. The division by a power of two is
   * exact in floating point, so the integer formula is the same value.
   */
  function Tenths(bytes: nat, unit: nat): (t: nat)
    requires unit > 0
    ensures 2 * t * unit <= 20 * bytes + unit < 2 * (t + 1) * unit
  {
    (20 * bytes + unit) / (2 * unit)
  }

  /** A size as `formatSize` shows it: a whole part, a tenths digit for KB and MB, and the unit. */
  datatype SizeLabel = SizeLabel(whole: nat, tenth: Option<nat>, unit: string)

  function FormatSize(bytes: nat): (l: SizeLabel)
    ensures l.unit == "B" <==> bytes < KiB
    ensures l.unit == "KB" <==> KiB <= bytes < MiB
    ensures l.unit == "MB" <==> MiB <= bytes
    ensures bytes < KiB ==> l.whole == bytes && l.tenth.None?
    ensures KiB <= bytes ==> l.tenth.Some? && l.tenth.value < 10
    ensures KiB <= bytes < MiB ==> 10 * l.whole + l.tenth.value == Tenths(bytes, KiB)
    ensures MiB <= bytes ==> 10 * l.whole + l.tenth.value == Tenths(bytes, MiB)
  {
    if bytes < KiB then SizeLabel(bytes, None, "B")
    else
      var t := if bytes < MiB then Tenths(bytes, KiB) else Tenths(bytes, MiB);
      SizeLabel(t / 10, Some(t % 10), if bytes < MiB then "KB" else "MB")
  }

  /** The label's text: `${n} B`, or `${whole}.${tenth} KB` / `MB`. */
  function Render(l: SizeLabel): (text: string)
    requires l.tenth.Some? ==> l.tenth.value < 10
    ensures |l.unit| + 1 < |text| && text[|text| - |l.unit| - 1..] == " " + l.unit
    ensures IsDigit(text[0])
  {
    NatToString(l.whole) + (if l.tenth.Some? then "." + [DigitChar(l.tenth.value)] else "") + " " + l.unit
  }

  /** A size under 1024 is shown as its exact byte count, which reads back from the text. */
  lemma SmallSizeReadsBack(bytes: nat)
    requires bytes < KiB
    ensures var text := Render(FormatSize(bytes));
      var head := BeforeFirst(text, ' ');
      AllDigits(head) && ParseDigits(head) == bytes && text == head + " B"
  {
    var digits := NatToString(bytes);
    NumeralWithout(bytes, ' ');
    assert Render(FormatSize(bytes)) == digits + [' '] + "B";
    BeforeFirstOf(digits, ' ', "B");
    ParseNatToString(bytes);
  }

  /**
   * A size of 1024 or more is shown as a numeral, a `.`, one digit and the
   * unit; the numeral and the digit read back as the rounded count of tenths.
   */
  lemma LargeSizeReadsBack(bytes: nat)
    requires KiB <= bytes
    ensures var l := FormatSize(bytes);
      var text := Render(l);
      var head := BeforeFirst(text, '.');
      && |head| + 2 < |text|
      && AllDigits(head) && AllDigits([text[|head| + 1]])
      && text == head + "." + [text[|head| + 1]] + " " + l.unit
      && (l.unit == "KB" || l.unit == "MB")
      && 10 * ParseDigits(head) + ParseDigits([text[|head| + 1]])
         == Tenths(bytes, if bytes < MiB then KiB else MiB)
  {
    var l := FormatSize(bytes);
    var digits := NatToString(l.whole);
    var d := DigitChar(l.tenth.value);
    var text := Render(l);
    NumeralWithout(l.whole, '.');
    assert text == digits + ['.'] + ([d] + " " + l.unit);
    BeforeFirstOf(digits, '.', [d] + " " + l.unit);
    assert text[|digits| + 1] == d;
    assert text == digits + "." + [d] + " " + l.unit;
    ParseNatToString(l.whole);
    assert ParseDigits([d]) == l.tenth.value by {
      assert [d][..0] == [];
    }
  }

  // ---------------------------------------------------------------------------
  // Page state
  // ---------------------------------------------------------------------------

  datatype CoursesState = CoursesState(
    notes: seq<Note>,
    pending: bool,
    error: Option<string>,
    search: string,
    courseFilter: string)

  /** `refresh`: the listing replaces the notes; a failed fetch leaves none. */
  function OnListed(st: CoursesState, data: Option<seq<Note>>): (r: CoursesState)
    ensures data.Some? ==> r.notes == data.value
    ensures data.None? ==> r.notes == []
    ensures r.(notes := st.notes) == st
  {
    st.(notes := data.GetOr([]))
  }

  // ---------------------------------------------------------------------------
  // onSubmit
  // ---------------------------------------------------------------------------

  /** The form's fields as `FormData` holds them; `None` when the form lacks the field. */
  datatype UploadForm = UploadForm(
    title: Option<string>,
    subject: Option<string>,
    course: Option<string>,
    description: Option<string>,
    file: Option<ChosenFile>)

  const LoginFirst := "Please login or register to upload notes."
  const ChooseFile := "Please select a file to upload."
  const UploadFailed := "Upload failed"

  /** `String(fd.get(key) || "").trim()`. */
  function FieldText(o: Option<string>): (r: string)
    ensures r == "" <==> Blank(o)
  {
    Trim(o.GetOr(""))
  }

  /**
   * The multipart fields sent: the form's own fields as typed (the server
   * trims them), plus the owner's email and name when the user has them.
   */
  function SentFields(user: AuthUser, form: UploadForm): (f: UploadFields)
    ensures f.title == form.title && f.course == form.course
    ensures f.subject == form.subject && f.description == form.description
    ensures f.ownerEmail == TruthyOrAbsent(user.email)
    ensures f.ownerName == TruthyOrAbsent(Some(user.name))
  {
    UploadFields(
      title := form.title,
      description := form.description,
      ownerEmail := TruthyOrAbsent(user.email),
      ownerName := TruthyOrAbsent(Some(user.name)),
      subject := form.subject,
      course := form.course)
  }

  datatype Step = Step(state: CoursesState, effects: seq<Effect>)

  /**
   * `onSubmit`. The checks run in this order, each with its own message:
   * signed in, title, course, then a non-empty file. Only when all pass is
   * the form posted, with the page marked pending.
   */
  function OnSubmit(st: CoursesState, user: Option<AuthUser>, form: UploadForm): (r: Step)
    ensures r.state.notes == st.notes && r.state.search == st.search && r.state.courseFilter == st.courseFilter
    ensures user.None? ==> r == Step(st.(error := Some(LoginFirst)), [])
    ensures user.Some? && Blank(form.title) ==> r == Step(st.(error := Some(TitleRequired)), [])
    ensures user.Some? && !Blank(form.title) && Blank(form.course) ==> r == Step(st.(error := Some(CourseRequired)), [])
    ensures user.Some? && !Blank(form.title) && !Blank(form.course) && (form.file.None? || form.file.value.size == 0) ==>
      r == Step(st.(error := Some(ChooseFile)), [])
    ensures r.effects != [] <==>
      user.Some? && !Blank(form.title) && !Blank(form.course) && form.file.Some? && form.file.value.size > 0
    ensures r.effects != [] ==>
      && r.effects == [Send(PostNote(SentFields(user.value, form), form.file))]
      && r.state == st.(error := None, pending := true)
  {
    if user.None? then Step(st.(error := Some(LoginFirst)), [])
    else if FieldText(form.title) == "" then Step(st.(error := Some(TitleRequired)), [])
    else if FieldText(form.course) == "" then Step(st.(error := Some(CourseRequired)), [])
    else if form.file.None? || form.file.value.size == 0 then Step(st.(error := Some(ChooseFile)), [])
    else Step(st.(error := None, pending := true), [Send(PostNote(SentFields(user.value, form), form.file))])
  }

  /** How an upload request ends, as the page sees it. */
  datatype UploadReply =
    | Uploaded(note: Note)            // a 2xx answer carrying `{ note }`
    | NotOk(text: string)             // any other status, with the body as text
    | Unreachable(message: string)    // the request itself failed

  /**
   * The rest of `onSubmit`: a stored note goes to the front of the list;
   * otherwise the error shows the server's text, or `"Upload failed"` when
   * there is none. Pending ends either way.
   */
  function OnUploadReply(st: CoursesState, reply: UploadReply): (r: CoursesState)
    ensures !r.pending
    ensures reply.Uploaded? ==> r.notes == [reply.note] + st.notes && r.error == st.error
    ensures !reply.Uploaded? ==> r.notes == st.notes && r.error.Some? && r.error.value != ""
    ensures reply.NotOk? ==> r.error.value == (if reply.text != "" then reply.text else UploadFailed)
    ensures reply.Unreachable? ==> r.error.value == (if reply.message != "" then reply.message else UploadFailed)
  {
    match reply
    case Uploaded(n) => st.(notes := [n] + st.notes, pending := false)
    case NotOk(text) => st.(error := Some(if text != "" then text else UploadFailed), pending := false)
    case Unreachable(m) => st.(error := Some(if m != "" then m else UploadFailed), pending := false)
  }

  /** An accepted upload puts exactly one note in front and leaves the rest as it was. */
  lemma UploadPrepends(st: CoursesState, n: Note)
    ensures var after := OnUploadReply(st, Uploaded(n)).notes;
      |after| == |st.notes| + 1 && after[0] == n && after[1..] == st.notes
  {
    var after := OnUploadReply(st, Uploaded(n)).notes;
    assert after[1..] == ([n] + st.notes)[1..];
  }

  // ---------------------------------------------------------------------------
  // The displayed list
  // ---------------------------------------------------------------------------

  /** The course filter: none selected keeps every note, otherwise exactly that course. */
  predicate CourseKeeps(filter: string, n: Note) {
    filter == "" || n.course == Some(filter)
  }

  /** The subject search: empty keeps every note, otherwise a case-insensitive substring of the subject. */
  predicate SubjectKeeps(search: string, n: Note) {
    search == "" || Contains(ToLower(n.subject.GetOr("")), ToLower(search))
  }

  function Visible(st: CoursesState): seq<Note> {
    Filter(Filter(st.notes, n => CourseKeeps(st.courseFilter, n)), n => SubjectKeeps(st.search, n))
  }

  /**
   * The displayed notes are exactly those that pass both filters, in list
   * order: one filter on the conjunction gives the same list.
   */
  lemma {:induction false} VisibleIsBothFilters(st: CoursesState)
    ensures Visible(st) == Filter(st.notes, n => CourseKeeps(st.courseFilter, n) && SubjectKeeps(st.search, n))
    ensures IsSubsequence(Visible(st), st.notes)
    ensures forall n :: n in Visible(st) <==> n in st.notes && CourseKeeps(st.courseFilter, n) && SubjectKeeps(st.search, n)
  {
    var both := n => CourseKeeps(st.courseFilter, n) && SubjectKeeps(st.search, n);
    FilterTwice(st.notes, n => CourseKeeps(st.courseFilter, n), n => SubjectKeeps(st.search, n), both);
    FilterIsSubsequence(st.notes, both);
    FilterMembers(st.notes, both);
  }

  /** With no course chosen and no search text, every note is displayed, in order. */
  lemma NoFiltersShowAll(st: CoursesState)
    requires st.courseFilter == "" && st.search == ""
    ensures Visible(st) == st.notes
  {
    FilterAll(st.notes, n => CourseKeeps(st.courseFilter, n));
    FilterAll(st.notes, n => SubjectKeeps(st.search, n));
  }
}

=== FILE: maybe.dfy ===
/** Optional values: an absent JSON property, an unset form field, `undefined`. */
module Maybe {

  datatype Option<+T> = None | Some(value: T) {

    /** The value, or `default` when absent (JavaScript's `x ?? default`). */
    function GetOr(default: T): T {
      match this
      case Some(v) => v
      case None => default
    }
  }
}

=== FILE: newest_first.dfy ===
/**
 * The order of the note listing: `sort((a, b) => b.uploadedAt.localeCompare(a.uploadedAt))`.
 * JavaScript's sort is stable, so notes with equal timestamps keep their stored order.
 *
 * Stated for any element type with a timestamp `stamp`; the listing uses a
 * note's `uploadedAt`.
 */
module NewestFirst {
  import opened Text

  /** `a` is stamped no earlier than `b`. */
  predicate NotOlder<T>(stamp: T -> string, a: T, b: T) {
    !Precedes(stamp(a), stamp(b))
  }

  predicate Descending<T>(stamp: T -> string, s: seq<T>) {
    forall i, j :: 0 <= i < j < |s| ==> NotOlder(stamp, s[i], s[j])
  }

  /** The elements of `s` stamped exactly `k`, in their order in `s`. */
  function Stamped<T>(stamp: T -> string, s: seq<T>, k: string): seq<T> {
    if s == [] then []
    else (if stamp(s[0]) == k then [s[0]] else []) + Stamped(stamp, s[1..], k)
  }

  /**
   * `r` is what a stable sort of `s` by descending timestamp yields: `r` is
   * descending, and for every timestamp the elements carrying it appear in
   * `r` in exactly the order they appear in `s`.
   */
  ghost predicate StableNewestFirst<T>(stamp: T -> string, r: seq<T>, s: seq<T>) {
    Descending(stamp, r) && forall k :: Stamped(stamp, r, k) == Stamped(stamp, s, k)
  }

  /** Places `x` before the first element of `s` that is not newer than it. */
  function Insert<T>(stamp: T -> string, x: T, s: seq<T>): (r: seq<T>)
    ensures multiset(r) == multiset(s) + multiset{x}
  {
    if s == [] || NotOlder(stamp, x, s[0]) then [x] + s
    else
      assert s == [s[0]] + s[1..];
      [s[0]] + Insert(stamp, x, s[1..])
  }

  lemma {:induction false} InsertDescending<T>(stamp: T -> string, x: T, s: seq<T>)
    requires Descending(stamp, s)
    ensures Descending(stamp, Insert(stamp, x, s))
    decreases |s|
  {
    if s == [] || NotOlder(stamp, x, s[0]) {
      forall j | 0 <= j < |s|
        ensures NotOlder(stamp, x, s[j])
      {
        if j > 0 {
          NotPrecedesTransitive(stamp(x), stamp(s[0]), stamp(s[j]));
        }
      }
    } else {
      var rest := Insert(stamp, x, s[1..]);
      InsertDescending(stamp, x, s[1..]);
      PrecedesTrichotomy(stamp(x), stamp(s[0]));
      forall y | y in rest
        ensures NotOlder(stamp, s[0], y)
      {
        assert y in multiset(rest);
      }
      var r := [s[0]] + rest;
      forall i, j | 0 <= i < j < |r|
        ensures NotOlder(stamp, r[i], r[j])
      {
        if i == 0 {
          assert r[j] == rest[j - 1];
        } else {
          assert r[i] == rest[i - 1] && r[j] == rest[j - 1];
        }
      }
    }
  }

  lemma StampedCons<T>(stamp: T -> string, x: T, s: seq<T>, k: string)
    ensures Stamped(stamp, [x] + s, k) == (if stamp(x) == k then [x] else []) + Stamped(stamp, s, k)
  {
    assert ([x] + s)[1..] == s;
  }

  /** Inserting `x` keeps every timestamp's elements in the order of `[x] + s`. */
  lemma {:induction false} InsertStamped<T>(stamp: T -> string, x: T, s: seq<T>, k: string)
    ensures Stamped(stamp, Insert(stamp, x, s), k) == Stamped(stamp, [x] + s, k)
    decreases |s|
  {
    if s != [] && !NotOlder(stamp, x, s[0]) {
      var head := s[0];
      var tail := s[1..];
      InsertStamped(stamp, x, tail, k);
      PrecedesIrreflexive(stamp(x));
      assert stamp(head) != k || stamp(x) != k;
      assert s == [head] + tail;
      StampedCons(stamp, head, Insert(stamp, x, tail), k);
      StampedCons(stamp, x, tail, k);
      StampedCons(stamp, x, s, k);
      StampedCons(stamp, head, tail, k);
    }
  }

  lemma {:induction false} InsertKeepsStamps<T>(stamp: T -> string, x: T, t: seq<T>, s: seq<T>)
    requires forall k :: Stamped(stamp, t, k) == Stamped(stamp, s, k)
    ensures forall k :: Stamped(stamp, Insert(stamp, x, t), k) == Stamped(stamp, [x] + s, k)
  {
    forall k
      ensures Stamped(stamp, Insert(stamp, x, t), k) == Stamped(stamp, [x] + s, k)
    {
      InsertStamped(stamp, x, t, k);
      StampedCons(stamp, x, t, k);
      StampedCons(stamp, x, s, k);
    }
  }

  /** The listing order: a stable sort of `s`, newest first. */
  function SortNewestFirst<T>(stamp: T -> string, s: seq<T>): (r: seq<T>)
    ensures multiset(r) == multiset(s)
    ensures StableNewestFirst(stamp, r, s)
  {
    if s == [] then []
    else
      var t := SortNewestFirst(stamp, s[1..]);
      InsertDescending(stamp, s[0], t);
      InsertKeepsStamps(stamp, s[0], t, s[1..]);
      assert s == [s[0]] + s[1..];
      Insert(stamp, s[0], t)
  }
}

=== FILE: note_store.dfy ===
/**
 * Properties of the note record store across handlers: the link between
 * records and stored binaries, first-match semantics under duplicate ids,
 * the view counter, and the end-to-end upload / view / delete scenario.
 */
module NoteStore {
  import opened Maybe
  import opened Text
  import opened Api
  import opened Paths
  import opened NotesRoutes
  import opened Seqs

  /** A record's id and url are derived from its stored filename. */
  predicate Derived(n: Note) {
    n.id == ParseName(n.filename) && n.url == "/uploads/" + n.filename
  }

  function Filenames(notes: seq<Note>): set<string> {
    if notes == [] then {} else {notes[0].filename} + Filenames(notes[1..])
  }

  predicate DistinctFiles(notes: seq<Note>) {
    forall i, j :: 0 <= i < j < |notes| ==> notes[i].filename != notes[j].filename
  }

  /**
   * Records and binaries are linked one to one: every record names a
   * distinct stored binary, every stored binary belongs to a record, and
   * each record's id and url are derived from its filename.
   */
  predicate Linked(notes: seq<Note>, uploads: set<string>) {
    && DistinctFiles(notes)
    && All(notes, Derived)
    && Filenames(notes) == uploads
  }

  predicate Consistent(d: Disk) {
    Linked(ReadNotes(d.notes), d.uploads)
  }

  lemma {:induction false} FilenamesAppend(a: seq<Note>, b: seq<Note>)
    ensures Filenames(a + b) == Filenames(a) + Filenames(b)
    decreases |a|
  {
    if a == [] {
      assert a + b == b;
    } else {
      assert (a + b)[1..] == a[1..] + b;
      FilenamesAppend(a[1..], b);
    }
  }

  lemma {:induction false} FilenamesIndex(notes: seq<Note>)
    ensures forall i :: 0 <= i < |notes| ==> notes[i].filename in Filenames(notes)
    ensures forall f :: f in Filenames(notes) ==> exists i :: 0 <= i < |notes| && notes[i].filename == f
    decreases |notes|
  {
    if notes != [] {
      FilenamesIndex(notes[1..]);
      forall f | f in Filenames(notes)
        ensures exists i :: 0 <= i < |notes| && notes[i].filename == f
      {
        if f != notes[0].filename {
          var k :| 0 <= k < |notes[1..]| && notes[1..][k].filename == f;
          assert notes[k + 1].filename == f;
        }
      }
    }
  }

  /** Records that already carry their defaults read back unchanged once written. */
  lemma ReadWritten(s: seq<Note>)
    requires forall i :: 0 <= i < |s| ==> !s[i].views.Missing?
    ensures ReadNotes(Records(s)) == s
  {
  }

  /** Appending a record with a new binary keeps the link one to one. */
  lemma {:induction false} LinkedAppend(notes: seq<Note>, uploads: set<string>, n: Note)
    requires Linked(notes, uploads) && Derived(n) && n.filename !in uploads
    ensures Linked(notes + [n], uploads + {n.filename})
  {
    FilenamesIndex(notes);
    FilenamesAppend(notes, [n]);
    assert Filenames([n]) == {n.filename};
    AllAppend(notes, n, Derived);
    var all := notes + [n];
    forall i, j | 0 <= i < j < |all|
      ensures all[i].filename != all[j].filename
    {
      if j == |notes| {
        assert all[i] == notes[i];
      } else {
        assert all[i] == notes[i] && all[j] == notes[j];
      }
    }
  }

  /**
   * An upload whose generated name is new keeps the store consistent: an
   * accepted one adds the record together with its binary, and a rejected
   * one leaves the disk exactly as it was (the binary is removed again).
   */
  lemma {:induction false} UploadKeepsConsistent(d: Disk, req: UploadRequest, now: string)
    requires Consistent(d)
    requires req.file.Some? ==> req.file.value.filename !in d.uploads
    ensures var out := UploadNote(d, req, now);
      && Consistent(out.disk)
      && (out.response.status != 200 ==> out.disk == d)
  {
    var out := UploadNote(d, req, now);
    if out.response.status == 200 {
      UploadAcceptedConsistent(d, req, now);
    } else if req.file.Some? {
      UploadRejectedUnchanged(d, req, now);
    }
  }

  lemma {:induction false} UploadAcceptedConsistent(d: Disk, req: UploadRequest, now: string)
    requires Consistent(d) && req.file.Some? && req.file.value.filename !in d.uploads
    requires !Blank(req.fields.ownerEmail) && !Blank(req.fields.title) && !Blank(req.fields.course)
    ensures Consistent(UploadNote(d, req, now).disk)
  {
    var out := UploadNote(d, req, now);
    var notes := ReadNotes(d.notes);
    var n := out.response.body.note;
    assert Derived(n);
    LinkedAppend(notes, d.uploads, n);
    ReadWritten(notes + [n]);
  }

  /** A rejected upload takes back the binary the middleware wrote, so the disk is as before. */
  lemma UploadRejectedUnchanged(d: Disk, req: UploadRequest, now: string)
    requires req.file.Some? && req.file.value.filename !in d.uploads
    requires UploadNote(d, req, now).response.status != 200
    ensures UploadNote(d, req, now).disk == d
  {
    var out := UploadNote(d, req, now);
    assert out.disk.uploads == d.uploads - {req.file.value.filename};
  }

  lemma DistinctRemove(notes: seq<Note>, i: nat)
    requires DistinctFiles(notes) && i < |notes|
    ensures DistinctFiles(notes[..i] + notes[i + 1..])
  {
    var rest := notes[..i] + notes[i + 1..];
    assert forall j :: 0 <= j < |rest| ==> rest[j] == notes[if j < i then j else j + 1];
  }

  /** Without the record at `i`, its filename (which no other record shares) is gone from the set. */
  lemma {:induction false} FilenamesRemove(notes: seq<Note>, i: nat)
    requires DistinctFiles(notes) && i < |notes|
    ensures Filenames(notes[..i] + notes[i + 1..]) == Filenames(notes) - {notes[i].filename}
  {
    var pre, post := notes[..i], notes[i + 1..];
    var f := notes[i].filename;
    assert notes == pre + [notes[i]] + post;
    FilenamesAppend(pre + [notes[i]], post);
    FilenamesAppend(pre, [notes[i]]);
    FilenamesAppend(pre, post);
    assert Filenames([notes[i]]) == {f};
    FilenamesIndex(pre);
    FilenamesIndex(post);
    assert f !in Filenames(pre);
    assert f !in Filenames(post);
  }

  /** Removing the record at `i` together with its binary keeps the link one to one. */
  lemma LinkedRemove(notes: seq<Note>, uploads: set<string>, i: nat)
    requires Linked(notes, uploads) && i < |notes|
    ensures Linked(notes[..i] + notes[i + 1..], uploads - {notes[i].filename})
  {
    DistinctRemove(notes, i);
    AllRemove(notes, i, Derived);
    FilenamesRemove(notes, i);
  }

  /** Deleting a record also takes its binary away, and the link stays one to one. */
  lemma DeleteKeepsConsistent(d: Disk, id: string)
    requires Consistent(d)
    ensures Consistent(DeleteNote(d, id).disk)
  {
    var notes := ReadNotes(d.notes);
    var out := DeleteNote(d, id);
    if FirstIndex(notes, id).Some? {
      var i := FirstIndex(notes, id).value;
      var rest := out.disk.notes.entries;
      assert rest == notes[..i] + notes[i + 1..];
      ReadWritten(rest);
      LinkedRemove(notes, d.uploads, i);
    }
  }

  /** Sequences that agree on every filename have the same filename set. */
  lemma {:induction false} FilenamesPointwise(a: seq<Note>, b: seq<Note>)
    requires |a| == |b|
    requires forall j :: 0 <= j < |a| ==> a[j].filename == b[j].filename
    ensures Filenames(a) == Filenames(b)
    decreases |a|
  {
    if a != [] {
      FilenamesPointwise(a[1..], b[1..]);
    }
  }

  lemma DistinctReplace(notes: seq<Note>, i: nat, n: Note)
    requires DistinctFiles(notes) && i < |notes| && n.filename == notes[i].filename
    ensures DistinctFiles(notes[i := n])
  {
    var after := notes[i := n];
    forall j, k | 0 <= j < k < |after|
      ensures after[j].filename != after[k].filename
    {
      assert after[j].filename == notes[j].filename && after[k].filename == notes[k].filename;
    }
  }

  /** Replacing a record by one with the same filename, id and url keeps the link. */
  lemma LinkedReplace(notes: seq<Note>, uploads: set<string>, i: nat, n: Note)
    requires Linked(notes, uploads) && i < |notes|
    requires n.filename == notes[i].filename && n.id == notes[i].id && n.url == notes[i].url
    ensures Linked(notes[i := n], uploads)
  {
    DistinctReplace(notes, i, n);
    assert Derived(n) by {
      assert Derived(notes[i]);
    }
    AllReplace(notes, i, n, Derived);
    FilenamesPointwise(notes, notes[i := n]);
  }

  /** Renaming or re-describing a record touches neither filenames, ids, urls nor binaries. */
  lemma {:induction false} UpdateKeepsConsistent(d: Disk, id: string, body: PatchBody)
    requires Consistent(d)
    ensures Consistent(UpdateNote(d, id, body).disk)
  {
    var notes := ReadNotes(d.notes);
    var out := UpdateNote(d, id, body);
    if FirstIndex(notes, id).Some? {
      var i := FirstIndex(notes, id).value;
      var n := out.response.body.note;
      ReadWritten(notes[i := n]);
      LinkedReplace(notes, d.uploads, i, n);
    }
  }

  lemma {:induction false} AddViewKeepsConsistent(d: Disk, id: string)
    requires Consistent(d)
    ensures Consistent(AddView(d, id).disk)
  {
    var notes := ReadNotes(d.notes);
    if FirstIndex(notes, id).Some? {
      var i := FirstIndex(notes, id).value;
      var n := notes[i].(views := Bump(notes[i].views));
      ReadWritten(notes[i := n]);
      LinkedReplace(notes, d.uploads, i, n);
    }
  }

  /**
   * A view raises the first matching record's listed count by exactly one
   * (a missing or null count counting as 0) and leaves every other record
   * as it was.
   */
  lemma AddViewCountsOnce(d: Disk, id: string)
    requires var notes := ReadNotes(d.notes);
      FirstIndex(notes, id).Some? && !notes[FirstIndex(notes, id).value].views.Text?
    ensures var notes := ReadNotes(d.notes);
      var i := FirstIndex(notes, id).value;
      var after := ReadNotes(AddView(d, id).disk.notes);
      && |after| == |notes|
      && ListedViews(after[i].views) == ListedViews(notes[i].views) + 1
      && AddView(d, id).response == Response(200, OkViews(Num(ListedViews(notes[i].views) + 1)))
      && forall j :: 0 <= j < |notes| && j != i ==> after[j] == notes[j]
  {
    var notes := ReadNotes(d.notes);
    var written := AddView(d, id).disk.notes.entries;
    ReadWritten(written);
  }

  /**
   * A count stored as a string is extended with "1" instead of being
   * incremented, so the listing keeps reporting 0 for it: the view is lost.
   */
  lemma TextCountNeverRises(d: Disk, id: string)
    requires var notes := ReadNotes(d.notes);
      FirstIndex(notes, id).Some? && notes[FirstIndex(notes, id).value].views.Text?
    ensures var notes := ReadNotes(d.notes);
      var i := FirstIndex(notes, id).value;
      var after := ReadNotes(AddView(d, id).disk.notes);
      ListedViews(after[i].views) == ListedViews(notes[i].views) == 0
  {
    var written := AddView(d, id).disk.notes.entries;
    ReadWritten(written);
  }

  /** `FirstIndex` is not disturbed by records added after the first match. */
  lemma FirstIndexAppend(notes: seq<Note>, extra: seq<Note>, id: string)
    requires FirstIndex(notes, id).Some?
    ensures FirstIndex(notes + extra, id) == FirstIndex(notes, id)
  {
    var i := FirstIndex(notes, id).value;
    var r := FirstIndex(notes + extra, id);
    assert (notes + extra)[i] == notes[i];
    assert forall j :: 0 <= j < i ==> (notes + extra)[j] == notes[j];
  }

  /**
   * No duplicate-id check: an upload whose derived id is already taken is
   * still accepted, and a lookup of that id keeps returning the older
   * record, which (the store being consistent) is a different one.
   */
  lemma {:induction false} DuplicateIdIsShadowed(d: Disk, req: UploadRequest, now: string)
    requires Consistent(d)
    requires req.file.Some? && req.file.value.filename !in d.uploads
    requires !Blank(req.fields.ownerEmail) && !Blank(req.fields.title) && !Blank(req.fields.course)
    requires FirstIndex(ReadNotes(d.notes), ParseName(req.file.value.filename)).Some?
    ensures var out := UploadNote(d, req, now);
      var id := ParseName(req.file.value.filename);
      && out.response.status == 200
      && out.response.body.note.id == id
      && GetNote(out.disk, id).response == GetNote(d, id).response
      && GetNote(out.disk, id).response.body.note != out.response.body.note
  {
    var out := UploadNote(d, req, now);
    var notes := ReadNotes(d.notes);
    var n := out.response.body.note;
    var id := ParseName(req.file.value.filename);
    ReadWritten(notes + [n]);
    FirstIndexAppend(notes, [n], id);
    var i := FirstIndex(notes, id).value;
    FilenamesIndex(notes);
    assert notes[i].filename in d.uploads;
  }

  /**
   * For a binary named by the upload middleware, the accepted record's id is
   * the generated stem `${Date.now()}-${random}`, and the id followed by the
   * original extension is the stored filename.
   */
  lemma {:induction false} UploadIdIsStem(d: Disk, req: UploadRequest, now: string, stamp: nat, rand: string)
    requires req.file.Some? && IsBase36(rand)
    requires req.file.value.filename == StoredName(stamp, rand, req.file.value.originalName)
    requires !Blank(req.fields.ownerEmail) && !Blank(req.fields.title) && !Blank(req.fields.course)
    ensures var n := UploadNote(d, req, now).response.body.note;
      && n.id == Stem(stamp, rand)
      && n.id + ExtName(req.file.value.originalName) == n.filename
  {
    UploadAppends(d, req, now);
    StemIsId(stamp, rand, req.file.value.originalName);
  }

  lemma {:induction false} StemIsId(stamp: nat, rand: string, originalName: string)
    requires IsBase36(rand)
    ensures ParseName(StoredName(stamp, rand, originalName)) == Stem(stamp, rand)
    ensures Stem(stamp, rand) + ExtName(originalName) == StoredName(stamp, rand, originalName)
  {
    StoredNameParts(stamp, rand, originalName);
  }

  /**
   * Ids are not unique even when filenames are: two uploads named in the
   * same millisecond with the same random part get one id, and distinct
   * binaries exactly when their original extensions differ.
   */
  lemma {:induction false} ExtensionsCollideOnId(stamp: nat, rand: string, first: string, second: string)
    requires IsBase36(rand)
    ensures ParseName(StoredName(stamp, rand, first)) == ParseName(StoredName(stamp, rand, second))
    ensures StoredName(stamp, rand, first) == StoredName(stamp, rand, second) <==> ExtName(first) == ExtName(second)
  {
    StoredNameParts(stamp, rand, first);
    StoredNameParts(stamp, rand, second);
    var stem := Stem(stamp, rand);
    if StoredName(stamp, rand, first) == StoredName(stamp, rand, second) {
      assert (stem + ExtName(first))[|stem|..] == ExtName(first);
      assert (stem + ExtName(second))[|stem|..] == ExtName(second);
    }
  }

  /**
   * Deleting removes only the first record with the id: a lookup afterwards
   * finds the next record with that id, or answers 404 when it was the only one.
   */
  lemma {:induction false} DeleteThenGet(d: Disk, id: string)
    requires FirstIndex(ReadNotes(d.notes), id).Some?
    ensures var notes := ReadNotes(d.notes);
      var i := FirstIndex(notes, id).value;
      var after := GetNote(DeleteNote(d, id).disk, id).response;
      match FirstIndex(notes[i + 1..], id)
      case None => after == NotFound
      case Some(k) => after == Response(200, NoteJson(notes[i + 1 + k]))
  {
    var notes := ReadNotes(d.notes);
    var i := FirstIndex(notes, id).value;
    var post := notes[i + 1..];
    var after := ReadNotes(DeleteNote(d, id).disk.notes);
    DeleteLeaves(d, id, notes, i, after);
    FindAfterRemove(notes, i, post, id);
    match FirstIndex(post, id)
    case None =>
    case Some(k) =>
      assert after[i + k] == post[k];
  }

  /** The records a delete leaves: all but the first with the id, in order. */
  lemma DeleteLeaves(d: Disk, id: string, notes: seq<Note>, i: nat, after: seq<Note>)
    requires notes == ReadNotes(d.notes) && FirstIndex(notes, id) == Some(i)
    requires after == ReadNotes(DeleteNote(d, id).disk.notes)
    ensures after == notes[..i] + notes[i + 1..]
  {
    ReadRemoved(notes, i);
  }

  lemma FindAfterRemove(notes: seq<Note>, i: nat, post: seq<Note>, id: string)
    requires FirstIndex(notes, id) == Some(i) && post == notes[i + 1..]
    ensures FirstIndex(notes[..i] + post, id) == match FirstIndex(post, id) case None => None case Some(k) => Some(i + k)
  {
    var pre := notes[..i];
    assert forall j :: 0 <= j < |pre| ==> pre[j].id == notes[j].id;
    FirstIndexSkip(pre, post, id);
  }

  lemma ReadRemoved(notes: seq<Note>, i: nat)
    requires i < |notes| && forall j :: 0 <= j < |notes| ==> !notes[j].views.Missing?
    ensures ReadNotes(Records(notes[..i] + notes[i + 1..])) == notes[..i] + notes[i + 1..]
  {
    var rest := notes[..i] + notes[i + 1..];
    forall j | 0 <= j < |rest|
      ensures !rest[j].views.Missing?
    {
      assert rest[j] == notes[if j < i then j else j + 1];
    }
    ReadWritten(rest);
  }

  lemma {:induction false} FirstIndexSkip(pre: seq<Note>, post: seq<Note>, id: string)
    requires forall j :: 0 <= j < |pre| ==> pre[j].id != id
    ensures FirstIndex(pre + post, id) == match FirstIndex(post, id) case None => None case Some(k) => Some(|pre| + k)
    decreases |pre|
  {
    if pre != [] {
      assert (pre + post)[1..] == pre[1..] + post;
      FirstIndexSkip(pre[1..], post, id);
    } else {
      assert pre + post == post;
    }
  }

  /** A record appended after records that do not carry its id is the first match. */
  lemma {:induction false} FirstIndexOfLast(notes: seq<Note>, n: Note)
    requires FirstIndex(notes, n.id).None?
    ensures FirstIndex(notes + [n], n.id) == Some(|notes|)
  {
    FirstIndexSkip(notes, [n], n.id);
  }

  /** A view of a record that sits last, with no earlier record sharing its id. */
  lemma {:induction false} ViewOfLast(d: Disk, notes: seq<Note>, n: Note)
    requires d.notes == Records(notes + [n])
    requires forall j :: 0 <= j < |notes| ==> !notes[j].views.Missing?
    requires FirstIndex(notes, n.id).None? && !n.views.Missing?
    ensures AddView(d, n.id).response == Response(200, OkViews(Bump(n.views)))
    ensures AddView(d, n.id).disk == Disk(Records(notes + [n.(views := Bump(n.views))]), d.uploads)
  {
    ReadWritten(notes + [n]);
    FirstIndexOfLast(notes, n);
    UpdateLast(notes, n, n.(views := Bump(n.views)));
  }

  /** Deleting a record that sits last, with no earlier record sharing its id. */
  lemma {:induction false} DeleteOfLast(d: Disk, notes: seq<Note>, n: Note)
    requires d.notes == Records(notes + [n])
    requires forall j :: 0 <= j < |notes| ==> !notes[j].views.Missing?
    requires FirstIndex(notes, n.id).None? && !n.views.Missing?
    ensures DeleteNote(d, n.id).response == Response(200, OkEmpty)
    ensures DeleteNote(d, n.id).disk == Disk(Records(notes), d.uploads - {n.filename})
  {
    ReadWritten(notes + [n]);
    FirstIndexOfLast(notes, n);
    RemoveLast(notes, n);
  }

  /** An accepted upload appends its record last. */
  lemma UploadAppends(d: Disk, req: UploadRequest, now: string)
    requires req.file.Some?
    requires !Blank(req.fields.ownerEmail) && !Blank(req.fields.title) && !Blank(req.fields.course)
    ensures var up := UploadNote(d, req, now);
      && up.response.status == 200
      && up.disk.notes == Records(ReadNotes(d.notes) + [up.response.body.note])
      && up.disk.uploads == d.uploads + {req.file.value.filename}
      && up.response.body.note.id == ParseName(req.file.value.filename)
      && up.response.body.note.filename == req.file.value.filename
      && up.response.body.note.views == Num(0)
  {
  }

  /** Upload, then view: the new record is counted once and stays last. */
  lemma {:induction false} UploadThenView(d: Disk, req: UploadRequest, now: string)
    requires req.file.Some?
    requires !Blank(req.fields.ownerEmail) && !Blank(req.fields.title) && !Blank(req.fields.course)
    requires FirstIndex(ReadNotes(d.notes), ParseName(req.file.value.filename)).None?
    ensures var up := UploadNote(d, req, now);
      var n := up.response.body.note;
      var viewed := AddView(up.disk, n.id);
      && viewed.response == Response(200, OkViews(Num(1)))
      && viewed.disk == Disk(Records(ReadNotes(d.notes) + [n.(views := Num(1))]), d.uploads + {req.file.value.filename})
  {
    UploadAppends(d, req, now);
    var up := UploadNote(d, req, now);
    ViewOfLast(up.disk, ReadNotes(d.notes), up.response.body.note);
  }

  /**
   * The end-to-end scenario: upload a note with a new id, count one view,
   * delete it; the counter reads 1, the note is gone afterwards, the other
   * records are as they were, and the uploaded binary is removed again, so
   * the binaries are as before when its name was new.
   */
  lemma {:induction false} UploadViewDelete(d: Disk, req: UploadRequest, now: string)
    requires req.file.Some?
    requires !Blank(req.fields.ownerEmail) && !Blank(req.fields.title) && !Blank(req.fields.course)
    requires FirstIndex(ReadNotes(d.notes), ParseName(req.file.value.filename)).None?
    ensures var up := UploadNote(d, req, now);
      var id := up.response.body.note.id;
      var viewed := AddView(up.disk, id);
      var deleted := DeleteNote(viewed.disk, id);
      && viewed.response == Response(200, OkViews(Num(1)))
      && deleted.response == Response(200, OkEmpty)
      && deleted.disk.notes == Records(ReadNotes(d.notes))
      && deleted.disk.uploads == d.uploads - {req.file.value.filename}
      && (req.file.value.filename !in d.uploads ==> deleted.disk.uploads == d.uploads)
      && GetNote(deleted.disk, id).response == NotFound
  {
    var notes := ReadNotes(d.notes);
    UploadAppends(d, req, now);
    UploadThenView(d, req, now);
    var up := UploadNote(d, req, now);
    var n := up.response.body.note;
    DeleteViewedLast(AddView(up.disk, n.id).disk, notes, n.(views := Num(1)), d.uploads);
  }

  /** Deleting the last record of a disk that lists it once removes it and its binary. */
  lemma {:induction false} DeleteViewedLast(v: Disk, notes: seq<Note>, n: Note, uploads: set<string>)
    requires v == Disk(Records(notes + [n]), uploads + {n.filename})
    requires forall j :: 0 <= j < |notes| ==> !notes[j].views.Missing?
    requires FirstIndex(notes, n.id).None? && !n.views.Missing?
    ensures var deleted := DeleteNote(v, n.id);
      && deleted.response == Response(200, OkEmpty)
      && deleted.disk == Disk(Records(notes), uploads - {n.filename})
      && (n.filename !in uploads ==> deleted.disk.uploads == uploads)
      && GetNote(deleted.disk, n.id).response == NotFound
  {
    DeleteOfLast(v, notes, n);
    ReadWritten(notes);
    assert (uploads + {n.filename}) - {n.filename} == uploads - {n.filename};
    assert n.filename !in uploads ==> uploads - {n.filename} == uploads;
  }

  /**
   * The PATCH route does not re-check the title: a blank title is accepted
   * and stored as the empty string, although an upload never creates one.
   */
  lemma UpdateAcceptsBlankTitle(d: Disk, id: string, title: string, description: Option<string>)
    requires FirstIndex(ReadNotes(d.notes), id).Some?
    requires AllSpace(title)
    ensures var out := UpdateNote(d, id, PatchBody(Some(title), description));
      var i := FirstIndex(ReadNotes(d.notes), id).value;
      && out.response.status == 200
      && out.response.body.note.title == ""
      && out.disk.notes.Records?
      && i < |out.disk.notes.entries|
      && out.disk.notes.entries[i].title == ""
  {
  }
}

=== FILE: notes_routes.dfy ===
/**
 * The note record store: the request handlers of the notes API.
 *
 * Every handler reads the whole notes file, works on the records in memory,
 * and (except list and get) writes the whole array back. Each is modelled as
 * a pure function from the disk it finds (notes file plus the set of stored
 * binaries) and the request to the response and the disk it leaves.
 * Clocks and random name parts are parameters.
 */
module NotesRoutes {
  import opened Maybe
  import opened Text
  import opened Api
  import opened Paths
  import opened NewestFirst

  /** The notes file as a handler finds it. */
  datatype NotesFile =
    | NoFile                       // not written yet
    | Unparseable                  // unreadable, not JSON, or JSON that is not an array
    | Records(entries: seq<Note>)

  /** What the routes read and write: the notes file and the names in the uploads directory. */
  datatype Disk = Disk(notes: NotesFile, uploads: set<string>)

  /** The JSON (or text) a handler answers with. */
  datatype Body =
    | NoteArray(notes: seq<Note>)  // the bare array of the listing
    | NoteJson(note: Note)         // a bare note
    | OkNote(note: Note)           // { ok: true, note }
    | OkEmpty                      // { ok: true }
    | OkViews(views: Views)        // { ok: true, views }
    | Failure(error: string)       // { ok: false, error }
    | PlainText(text: string)      // res.send(text)

  datatype Response = Response(status: nat, body: Body)

  datatype Outcome = Outcome(response: Response, disk: Disk)

  const NotFound := Response(404, Failure("Not found"))
  const FileRequired := "File is required"
  const LoginRequired := "Authentication required. Please login to upload notes."
  const TitleRequired := "Title is required"
  const CourseRequired := "Course is required"

  // ---------------------------------------------------------------------------
  // Reading the store
  // ---------------------------------------------------------------------------

  /** The defaults applied on every read: a record without `views` gets `views: 0`; nothing else changes. */
  function WithDefaults(n: Note): (r: Note)
    ensures r.views == (if n.views.Missing? then Num(0) else n.views)
  {
    if n.views.Missing? then n.(views := Num(0)) else n
  }

  /** Defaults touch only `views`: every other field reads back as stored. */
  lemma DefaultsKeepFields(n: Note)
    ensures WithDefaults(n).(views := n.views) == n
    ensures !n.views.Missing? ==> WithDefaults(n) == n
  {
  }

  /**
   * `readNotes`: the stored records with defaults applied; a file that is
   * missing or cannot be parsed as an array reads as no records at all.
   */
  function ReadNotes(f: NotesFile): (notes: seq<Note>)
    ensures !f.Records? ==> notes == []
    ensures f.Records? ==> |notes| == |f.entries|
    ensures f.Records? ==> forall i :: 0 <= i < |notes| ==> notes[i] == WithDefaults(f.entries[i])
    ensures forall i :: 0 <= i < |notes| ==> !notes[i].views.Missing?
  {
    match f
    case Records(entries) => seq(|entries|, i requires 0 <= i < |entries| => WithDefaults(entries[i]))
    case _ => []
  }

  /** `find` / `findIndex` by id: the position of the FIRST record carrying `id`. */
  function FirstIndex(notes: seq<Note>, id: string): (r: Option<nat>)
    ensures r.Some? ==> r.value < |notes| && notes[r.value].id == id
    ensures r.Some? ==> forall j :: 0 <= j < r.value ==> notes[j].id != id
    ensures r.None? <==> forall j :: 0 <= j < |notes| ==> notes[j].id != id
  {
    if notes == [] then None
    else if notes[0].id == id then Some(0)
    else match FirstIndex(notes[1..], id)
      case None => None
      case Some(k) => Some(k + 1)
  }

  // ---------------------------------------------------------------------------
  // GET /api/notes
  // ---------------------------------------------------------------------------

  /** The count the listing reports: `typeof views === "number" ? views : 0`. */
  function ListedViews(v: Views): int {
    if v.Num? then v.count else 0
  }

  function Listed(n: Note): Note {
    n.(views := Num(ListedViews(n.views)))
  }

  /** The sort key of the listing. */
  function UploadedAt(n: Note): string {
    n.uploadedAt
  }

  function ListedAll(notes: seq<Note>): (r: seq<Note>)
    ensures |r| == |notes|
    ensures forall i :: 0 <= i < |r| ==> r[i] == Listed(notes[i]) && r[i].views.Num?
  {
    if notes == [] then [] else [Listed(notes[0])] + ListedAll(notes[1..])
  }

  /**
   * `listNotes`: every stored record with a numeric view count, newest
   * first, ties in stored order. Nothing is written.
   */
  function ListNotes(d: Disk): (out: Outcome)
    ensures out.disk == d
    ensures out.response.status == 200 && out.response.body.NoteArray?
    ensures var listed := out.response.body.notes;
      && multiset(listed) == multiset(ListedAll(ReadNotes(d.notes)))
      && StableNewestFirst(UploadedAt, listed, ListedAll(ReadNotes(d.notes)))
      && forall n :: n in listed ==> n.views.Num?
  {
    var all := ListedAll(ReadNotes(d.notes));
    var listed := SortNewestFirst(UploadedAt, all);
    assert forall n :: n in listed ==> n in multiset(all);
    Outcome(Response(200, NoteArray(listed)), d)
  }

  // ---------------------------------------------------------------------------
  // GET /api/notes/:id
  // ---------------------------------------------------------------------------

  /** `getNote`: the first record with the id, as stored (defaults applied), or 404. */
  function GetNote(d: Disk, id: string): (out: Outcome)
    ensures out.disk == d
    ensures var notes := ReadNotes(d.notes);
      match FirstIndex(notes, id)
      case None => out.response == NotFound
      case Some(i) => out.response == Response(200, NoteJson(notes[i]))
  {
    var notes := ReadNotes(d.notes);
    match FirstIndex(notes, id)
    case None => Outcome(NotFound, d)
    case Some(i) => Outcome(Response(200, NoteJson(notes[i])), d)
  }

  // ---------------------------------------------------------------------------
  // POST /api/notes
  // ---------------------------------------------------------------------------

  /**
   * The file part the upload middleware received and stored, under
   * `filename` in the uploads directory (see `Paths.StoredName`).
   */
  datatype UploadedFile = UploadedFile(originalName: string, filename: string, size: nat, mimeType: string)

  /** The text fields of the multipart body; `None` when the field was not sent. */
  datatype UploadFields = UploadFields(
    title: Option<string>,
    description: Option<string>,
    ownerEmail: Option<string>,
    ownerName: Option<string>,
    subject: Option<string>,
    course: Option<string>)

  datatype UploadRequest = UploadRequest(file: Option<UploadedFile>, fields: UploadFields)

  /** The record built for an accepted upload stored under `name`. */
  function NewNote(file: UploadedFile, f: UploadFields, now: string): Note {
    var name := file.filename;
    Note(
      id := ParseName(name),
      title := TrimmedOrAbsent(f.title).GetOr(file.originalName),
      description := TrimmedOrAbsent(f.description),
      filename := name,
      originalName := file.originalName,
      size := file.size,
      mimeType := file.mimeType,
      url := "/uploads/" + name,
      uploadedAt := now,
      ownerEmail := TrimmedOrAbsent(f.ownerEmail),
      ownerName := TrimmedOrAbsent(f.ownerName),
      subject := TrimmedOrAbsent(f.subject),
      course := TrimmedOrAbsent(f.course),
      views := Num(0))
  }

  /**
   * `uploadNote`. `d` is the disk before the request; the middleware has
   * written the binary under `req.file.filename` before the handler runs.
   * The checks run in a fixed order: file, then owner, then title, then
   * course; every rejection after the file check unlinks that binary and
   * leaves the notes file alone. An accepted upload appends one record,
   * stamped `now` (`new Date().toISOString()`).
   */
  function UploadNote(d: Disk, req: UploadRequest, now: string): (out: Outcome)
    ensures req.file.None? ==> out == Outcome(Response(400, Failure(FileRequired)), d)
    ensures out.response == Response(401, PlainText(LoginRequired))
      <==> req.file.Some? && Blank(req.fields.ownerEmail)
    ensures out.response == Response(400, PlainText(TitleRequired))
      <==> req.file.Some? && !Blank(req.fields.ownerEmail) && Blank(req.fields.title)
    ensures out.response == Response(400, PlainText(CourseRequired))
      <==> req.file.Some? && !Blank(req.fields.ownerEmail) && !Blank(req.fields.title) && Blank(req.fields.course)
    ensures out.response.status == 200
      <==> req.file.Some? && !Blank(req.fields.ownerEmail) && !Blank(req.fields.title) && !Blank(req.fields.course)
    ensures req.file.Some? && out.response.status != 200 ==>
      && out.disk.notes == d.notes
      && out.disk.uploads == d.uploads - {req.file.value.filename}
    ensures out.response.status == 200 ==>
      && out.response.body.OkNote?
      && var n := out.response.body.note;
      && var file := req.file.value;
      && out.disk == Disk(Records(ReadNotes(d.notes) + [n]), d.uploads + {n.filename})
      && n.filename == file.filename
      && n.id == ParseName(n.filename)
      && n.url == "/uploads/" + n.filename
      && n.views == Num(0)
      && n.uploadedAt == now
      && n.originalName == file.originalName && n.size == file.size && n.mimeType == file.mimeType
      && n.title == Trim(req.fields.title.value) && n.title != ""
      && n.course == Some(Trim(req.fields.course.value))
      && n.ownerEmail == Some(Trim(req.fields.ownerEmail.value))
      && n.description == TrimmedOrAbsent(req.fields.description)
      && n.ownerName == TrimmedOrAbsent(req.fields.ownerName)
      && n.subject == TrimmedOrAbsent(req.fields.subject)
  {
    match req.file
    case None => Outcome(Response(400, Failure(FileRequired)), d)
    case Some(file) =>
      var name := file.filename;
      var f := req.fields;
      var unlinked := d.(uploads := (d.uploads + {name}) - {name});
      if Blank(f.ownerEmail) then Outcome(Response(401, PlainText(LoginRequired)), unlinked)
      else if Blank(f.title) then Outcome(Response(400, PlainText(TitleRequired)), unlinked)
      else if Blank(f.course) then Outcome(Response(400, PlainText(CourseRequired)), unlinked)
      else
        var note := NewNote(file, f, now);
        Outcome(Response(200, OkNote(note)), Disk(Records(ReadNotes(d.notes) + [note]), d.uploads + {name}))
  }

  // ---------------------------------------------------------------------------
  // DELETE /api/notes/:id
  // ---------------------------------------------------------------------------

  /**
   * `deleteNote`: removes the first record with the id, writes the rest in
   * order, then unlinks its binary. An unlink that fails is ignored.
   */
  function DeleteNote(d: Disk, id: string): (out: Outcome)
    ensures var notes := ReadNotes(d.notes);
      match FirstIndex(notes, id)
      case None => out == Outcome(NotFound, d)
      case Some(i) =>
        && out.response == Response(200, OkEmpty)
        && out.disk == Disk(Records(notes[..i] + notes[i + 1..]), d.uploads - {notes[i].filename})
  {
    var notes := ReadNotes(d.notes);
    match FirstIndex(notes, id)
    case None => Outcome(NotFound, d)
    case Some(i) =>
      var rest := notes[..i] + notes[i + 1..];
      Outcome(Response(200, OkEmpty), Disk(Records(rest), d.uploads - {notes[i].filename}))
  }

  // ---------------------------------------------------------------------------
  // PATCH /api/notes/:id
  // ---------------------------------------------------------------------------

  /** The JSON body of a PATCH: `None` unless the key holds a string. Other keys are ignored. */
  datatype PatchBody = PatchBody(title: Option<string>, description: Option<string>)

  /**
   * `updateNote`: on the first record with the id, replaces the title and
   * the description, each only when supplied as a string, trimmed. Nothing
   * else in the store changes.
   */
  function UpdateNote(d: Disk, id: string, body: PatchBody): (out: Outcome)
    ensures var notes := ReadNotes(d.notes);
      match FirstIndex(notes, id)
      case None => out == Outcome(NotFound, d)
      case Some(i) =>
        && out.response.status == 200 && out.response.body.OkNote?
        && var n := out.response.body.note;
        && out.disk == d.(notes := Records(notes[i := n]))
        && n == notes[i].(title := n.title, description := n.description)
        && n.title == (if body.title.Some? then Trim(body.title.value) else notes[i].title)
        && n.description == (if body.description.Some? then Some(Trim(body.description.value)) else notes[i].description)
  {
    var notes := ReadNotes(d.notes);
    match FirstIndex(notes, id)
    case None => Outcome(NotFound, d)
    case Some(i) =>
      var before := notes[i];
      var n := before.(
        title := if body.title.Some? then Trim(body.title.value) else before.title,
        description := if body.description.Some? then Some(Trim(body.description.value)) else before.description);
      Outcome(Response(200, OkNote(n)), d.(notes := Records(notes[i := n])))
  }

  // ---------------------------------------------------------------------------
  // POST /api/notes/:id/view
  // ---------------------------------------------------------------------------

  /** `(views ?? 0) + 1` under JavaScript's `+`: a string count gets "1" appended. */
  function Bump(v: Views): (r: Views)
    ensures !v.Text? ==> r.Num? && ListedViews(r) == ListedViews(v) + 1
    ensures v.Text? ==> r == Text(v.text + "1")
  {
    match v
    case Num(c) => Num(c + 1)
    case Text(t) => Text(t + "1")
    case _ => Num(1)
  }

  /** `addView`: bumps the first matching record's counter and answers with the new value. */
  function AddView(d: Disk, id: string): (out: Outcome)
    ensures var notes := ReadNotes(d.notes);
      match FirstIndex(notes, id)
      case None => out == Outcome(NotFound, d)
      case Some(i) =>
        var n := notes[i].(views := Bump(notes[i].views));
        && out.response == Response(200, OkViews(n.views))
        && out.disk == d.(notes := Records(notes[i := n]))
  {
    var notes := ReadNotes(d.notes);
    match FirstIndex(notes, id)
    case None => Outcome(NotFound, d)
    case Some(i) =>
      var n := notes[i].(views := Bump(notes[i].views));
      Outcome(Response(200, OkViews(n.views)), d.(notes := Records(notes[i := n])))
  }
}

=== FILE: paths.dfy ===
/**
 * The POSIX path functions the upload route uses to name a stored binary
 * (`path.basename`, `path.extname`, `path.parse(p).name`) and the name the
 * upload middleware generates for it.
 */
module Paths {
  import opened Maybe
  import opened Text

  /** `p` without its trailing `/` characters. */
  function StripTrailingSlashes(p: string): (r: string)
    ensures |r| <= |p| && r == p[..|r|]
    ensures r == [] || r[|r| - 1] != '/'
    ensures p != [] && p[|p| - 1] != '/' ==> r == p
    ensures forall k :: |r| <= k < |p| ==> p[k] == '/'
  {
    if p != [] && p[|p| - 1] == '/' then StripTrailingSlashes(p[..|p| - 1]) else p
  }

  /** `seg` is the last segment of `q`: its longest suffix without a `/`. */
  predicate LastSegmentOf(q: string, seg: string) {
    && '/' !in seg
    && |seg| <= |q| && seg == q[|q| - |seg|..]
    && (|seg| < |q| ==> q[|q| - |seg| - 1] == '/')
  }

  /** `path.basename(p)`: the last segment, trailing slashes ignored. */
  function BaseName(p: string): (r: string)
    ensures '/' !in r
  {
    var q := StripTrailingSlashes(p);
    match LastIndexOf(q, '/')
    case None => q
    case Some(i) => q[i + 1..]
  }

  lemma BaseNameIsLastSegment(p: string)
    ensures LastSegmentOf(StripTrailingSlashes(p), BaseName(p))
  {
  }

  /**
   * `ext` is the extension of the path segment `b`: a suffix of `b` running
   * from its last `.` to the end, empty exactly when `b` is `..` or has no
   * `.` after its first character.
   */
  predicate ExtensionOf(b: string, ext: string) {
    && |ext| <= |b| && ext == b[|b| - |ext|..]
    && (ext == [] || (ext[0] == '.' && '.' !in ext[1..] && |ext| < |b|))
    && (ext == [] <==> b == ".." || forall d :: 0 < d < |b| ==> b[d] != '.')
  }

  /** The extension of one path segment. */
  function SegmentExt(b: string): (r: string)
    ensures ExtensionOf(b, r)
  {
    match LastIndexOf(b, '.')
    case None => []
    case Some(d) => if d == 0 || b == ".." then [] else b[d..]
  }

  /** `path.extname(p)`: the extension of the base name. */
  function ExtName(p: string): (r: string)
    ensures '/' !in r
    ensures ExtensionOf(BaseName(p), r)
  {
    var b := BaseName(p);
    var r := SegmentExt(b);
    assert '/' !in r by {
      forall i | 0 <= i < |r|
        ensures r[i] != '/'
      {
        assert r[i] == b[|b| - |r| + i];
      }
    }
    r
  }

  /** `path.parse(p).name`: the base name without its extension. */
  function ParseName(p: string): string {
    var b := BaseName(p);
    b[..|b| - |SegmentExt(b)|]
  }

  /** The characters of `Math.random().toString(36)` after its leading `0.`. */
  predicate IsBase36(s: string) {
    forall i :: 0 <= i < |s| ==> IsDigit(s[i]) || 'a' <= s[i] <= 'z'
  }

  /** The stem of a generated name: `${Date.now()}-${random}`. */
  function Stem(stamp: nat, rand: string): string {
    NatToString(stamp) + "-" + rand
  }

  /** The name the disk storage gives an upload: the stem followed by the original name's extension. */
  function StoredName(stamp: nat, rand: string, originalName: string): string {
    Stem(stamp, rand) + ExtName(originalName)
  }

  lemma StemFacts(stamp: nat, rand: string)
    requires IsBase36(rand)
    ensures var stem := Stem(stamp, rand);
      stem != [] && IsDigit(stem[0]) && '/' !in stem && '.' !in stem
  {
    var digits := NatToString(stamp);
    var stem := Stem(stamp, rand);
    assert stem[0] == digits[0];
    forall i | 0 <= i < |stem|
      ensures stem[i] != '/' && stem[i] != '.'
    {
      if i < |digits| {
        assert stem[i] == digits[i];
      } else if i > |digits| {
        assert stem[i] == rand[i - |digits| - 1];
      }
    }
  }

  /** The part of a stem before its first `-` is the stamp's numeral, and reads back as the stamp. */
  lemma StemStamp(stamp: nat, rand: string)
    ensures var head := BeforeFirst(Stem(stamp, rand), '-');
      head == NatToString(stamp) && AllDigits(head) && ParseDigits(head) == stamp
  {
    var digits := NatToString(stamp);
    assert '-' !in digits by {
      forall i | 0 <= i < |digits|
        ensures digits[i] != '-'
      {
        assert IsDigit(digits[i]);
      }
    }
    BeforeFirstOf(digits, '-', rand);
    ParseNatToString(stamp);
  }

  lemma BaseNameOfSegment(name: string)
    requires name != [] && '/' !in name
    ensures BaseName(name) == name
  {
    assert name[|name| - 1] in name;
    assert StripTrailingSlashes(name) == name;
  }

  /** A segment made of a dot-free stem and an extension has exactly that extension. */
  lemma SegmentExtOfStem(stem: string, ext: string)
    requires stem != [] && IsDigit(stem[0]) && '.' !in stem
    requires ext == [] || (ext[0] == '.' && '.' !in ext[1..])
    ensures SegmentExt(stem + ext) == ext
  {
    var name := stem + ext;
    if ext == [] {
      assert name == stem;
    } else {
      var d := LastIndexOf(name, '.');
      assert name[|stem|] == '.';
      assert d.Some?;
      assert d.value == |stem|;
      assert name[0] != '.';
      assert name[|stem|..] == ext;
    }
  }

  /**
   * A note's id is `path.parse(filename).name`; for a generated name that is
   * exactly the stem, and stem plus the original extension gives the name back.
   */
  lemma StoredNameParts(stamp: nat, rand: string, originalName: string)
    requires IsBase36(rand)
    ensures var name := StoredName(stamp, rand, originalName);
      && '/' !in name
      && BaseName(name) == name
      && ParseName(name) == Stem(stamp, rand)
      && ParseName(name) + ExtName(originalName) == name
  {
    var stem := Stem(stamp, rand);
    var ext := ExtName(originalName);
    var name := stem + ext;
    StemFacts(stamp, rand);
    assert '/' !in name by {
      forall i | 0 <= i < |name|
        ensures name[i] != '/'
      {
        if i >= |stem| {
          assert name[i] == ext[i - |stem|];
        }
      }
    }
    BaseNameOfSegment(name);
    SegmentExtOfStem(stem, ext);
    assert name[..|name| - |ext|] == stem;
  }
}

=== FILE: pdf_preview.dfy ===
/**
 * The PDF preview: after the document loads, the container is cleared and
 * at most two pages are rendered one after another; a gate carrying a
 * "Download to continue" button is laid over the preview; finally the
 * component marks itself ready. The run is modelled as the trace of what
 * it does to the page, and its ordering rules as a small acceptor.
 */
module PdfPreview {
  import opened Maybe

  datatype PreviewEvent =
    | Cleared                    // container.innerHTML = ""
    | CanvasAppended(page: nat)  // the page's canvas is added
    | PageRendered(page: nat)    // the page's render promise settles
    | GateAppended               // the gate with the download button is added
    | ReadySet                   // setReady(true)

  const PreviewPages := 2

  /** `Math.min(2, pdf.numPages)`. */
  function PagesToRender(numPages: nat): (k: nat)
    ensures k <= PreviewPages && k <= numPages
    ensures k == PreviewPages || k == numPages
  {
    if numPages < PreviewPages then numPages else PreviewPages
  }

  /**
   * The loop for pages `i..k`: each page's canvas is appended and rendered
   * before the next begins, and the gate follows the render of page `gate`.
   */
  function PageEvents(i: nat, k: nat, gate: nat): (t: seq<PreviewEvent>)
    requires i >= 1
    decreases k + 1 - i
  {
    if i > k then []
    else [CanvasAppended(i), PageRendered(i)] + (if i == gate then [GateAppended] else []) + PageEvents(i + 1, k, gate)
  }

  /**
   * The effect as written: the gate is added when `i === 2`. `doc` is the
   * page count of the loaded document, `None` when loading fails (nothing
   * is drawn and the component stays not ready); `mountedAtEnd` is whether
   * the component is still mounted when the loop ends.
   */
  function RenderTrace(doc: Option<nat>, mountedAtEnd: bool): seq<PreviewEvent> {
    match doc
    case None => []
    case Some(n) => [Cleared] + PageEvents(1, PagesToRender(n), 2) + (if mountedAtEnd then [ReadySet] else [])
  }

  /** The corrected effect: the gate follows the last page rendered, however many that is. */
  function GatedTrace(doc: Option<nat>, mountedAtEnd: bool): seq<PreviewEvent> {
    match doc
    case None => []
    case Some(n) =>
      var k := PagesToRender(n);
      [Cleared] + PageEvents(1, k, k) + (if mountedAtEnd then [ReadySet] else [])
  }

  // ---------------------------------------------------------------------------
  // The ordering rules, as an acceptor over traces
  // ---------------------------------------------------------------------------

  /**
   * Where a run stands: whether the container was cleared, how many pages
   * have finished rendering, whether a page is rendering, how many gates
   * were added, and whether the component is ready.
   */
  datatype Phase = Phase(cleared: bool, done: nat, rendering: bool, gates: nat, ready: bool)

  const Start := Phase(false, 0, false, 0, false)

  /**
   * One allowed step, or `None` for a step the rules forbid: clearing comes
   * first and once; a page starts only after the previous one finished and
   * in page order; a gate comes after some page, never during a render, and
   * at most once; nothing happens after `ready`.
   */
  function Step(p: Phase, e: PreviewEvent): Option<Phase> {
    match e
    case Cleared =>
      if !p.cleared && p.done == 0 && !p.rendering && p.gates == 0 && !p.ready then Some(p.(cleared := true)) else None
    case CanvasAppended(q) =>
      if p.cleared && !p.rendering && !p.ready && q == p.done + 1 then Some(p.(rendering := true)) else None
    case PageRendered(q) =>
      if p.rendering && q == p.done + 1 then Some(p.(done := q, rendering := false)) else None
    case GateAppended =>
      if p.cleared && !p.rendering && !p.ready && p.done >= 1 && p.gates == 0 then Some(p.(gates := 1)) else None
    case ReadySet =>
      if p.cleared && !p.rendering && !p.ready then Some(p.(ready := true)) else None
  }

  function Run(p: Phase, t: seq<PreviewEvent>): Option<Phase>
    decreases |t|
  {
    if t == [] then Some(p)
    else match Step(p, t[0])
      case None => None
      case Some(q) => Run(q, t[1..])
  }

  lemma {:induction false} RunAppend(p: Phase, a: seq<PreviewEvent>, b: seq<PreviewEvent>)
    ensures Run(p, a + b) == match Run(p, a) case None => None case Some(q) => Run(q, b)
    decreases |a|
  {
    if a != [] {
      assert (a + b)[0] == a[0] && (a + b)[1..] == a[1..] + b;
      match Step(p, a[0])
      case None =>
      case Some(q) => RunAppend(q, a[1..], b);
    } else {
      assert a + b == b;
    }
  }

  /** The loop over pages `i..k` is accepted, and ends with `k` pages done and the gate counted. */
  lemma {:induction false} PagesAccepted(p: Phase, i: nat, k: nat, gate: nat)
    requires i >= 1 && i <= k + 1
    requires p.cleared && !p.rendering && !p.ready && p.done == i - 1
    requires i <= gate <= k ==> p.gates == 0
    ensures Run(p, PageEvents(i, k, gate)) == Some(p.(done := k, gates := if i <= gate <= k then 1 else p.gates))
    decreases k + 1 - i
  {
    if i <= k {
      var rendered := p.(done := i);
      var gated := if i == gate then rendered.(gates := 1) else rendered;
      var page := [CanvasAppended(i), PageRendered(i)];
      var extra := if i == gate then [GateAppended] else [];
      assert Run(p, page) == Some(rendered) by {
        var started := p.(rendering := true);
        assert page[1..] == [PageRendered(i)] && page[1..][1..] == [];
        assert Run(p, page) == Run(started, page[1..]);
        assert Run(started, page[1..]) == Run(rendered, []);
      }
      RunAppend(rendered, extra, PageEvents(i + 1, k, gate));
      RunAppend(p, page, extra + PageEvents(i + 1, k, gate));
      assert page + extra + PageEvents(i + 1, k, gate) == page + (extra + PageEvents(i + 1, k, gate));
      PagesAccepted(gated, i + 1, k, gate);
    }
  }

  /** What an accepted run of a trace ends with, for a loaded document. */
  lemma TraceAccepted(n: nat, mountedAtEnd: bool, gate: nat, t: seq<PreviewEvent>)
    requires t == [Cleared] + PageEvents(1, PagesToRender(n), gate) + (if mountedAtEnd then [ReadySet] else [])
    ensures var k := PagesToRender(n);
      Run(Start, t) == Some(Phase(true, k, false, if 1 <= gate <= k then 1 else 0, mountedAtEnd))
  {
    var k := PagesToRender(n);
    var cleared := Start.(cleared := true);
    var pages := PageEvents(1, k, gate);
    var last := if mountedAtEnd then [ReadySet] else [];
    PagesAccepted(cleared, 1, k, gate);
    RunAppend(Start, [Cleared], pages + last);
    RunAppend(cleared, pages, last);
    assert t == [Cleared] + (pages + last);
  }

  /**
   * The preview as written obeys the ordering rules: `min(2, numPages)`
   * pages, rendered in order, each before the next starts; one gate when
   * two pages were rendered and none otherwise; ready at the end exactly
   * when still mounted.
   */
  lemma RenderTraceOrdered(n: nat, mountedAtEnd: bool)
    ensures var k := PagesToRender(n);
      Run(Start, RenderTrace(Some(n), mountedAtEnd)) == Some(Phase(true, k, false, if k == 2 then 1 else 0, mountedAtEnd))
  {
    TraceAccepted(n, mountedAtEnd, 2, RenderTrace(Some(n), mountedAtEnd));
  }

  /** A one-page document, as written, never gets a gate, so its preview offers no download button. */
  lemma OnePageHasNoGate(mountedAtEnd: bool)
    ensures GateAppended !in RenderTrace(Some(1), mountedAtEnd)
  {
    var t := RenderTrace(Some(1), mountedAtEnd);
    assert PageEvents(2, 1, 2) == [];
    assert t == [Cleared, CanvasAppended(1), PageRendered(1)] + (if mountedAtEnd then [ReadySet] else []);
  }

  /** The corrected preview obeys the same rules and adds the gate for every document with a page. */
  lemma GatedTraceOrdered(n: nat, mountedAtEnd: bool)
    ensures var k := PagesToRender(n);
      Run(Start, GatedTrace(Some(n), mountedAtEnd)) == Some(Phase(true, k, false, if k >= 1 then 1 else 0, mountedAtEnd))
  {
    TraceAccepted(n, mountedAtEnd, PagesToRender(n), GatedTrace(Some(n), mountedAtEnd));
  }

  /** The corrected preview of any document with a page adds the gate. */
  lemma GateAlwaysAdded(n: nat, mountedAtEnd: bool)
    requires n >= 1
    ensures GateAppended in GatedTrace(Some(n), mountedAtEnd)
  {
    var k := PagesToRender(n);
    GateInPages(1, k);
    var pages := PageEvents(1, k, k);
    var t := GatedTrace(Some(n), mountedAtEnd);
    var j :| 0 <= j < |pages| && pages[j] == GateAppended;
    assert t[j + 1] == pages[j];
  }

  lemma {:induction false} GateInPages(i: nat, k: nat)
    requires 1 <= i <= k
    ensures GateAppended in PageEvents(i, k, k)
    decreases k - i
  {
    var t := PageEvents(i, k, k);
    if i == k {
      assert t[2] == GateAppended;
    } else {
      GateInPages(i + 1, k);
      var rest := PageEvents(i + 1, k, k);
      var j :| 0 <= j < |rest| && rest[j] == GateAppended;
      assert t[2 + j] == rest[j];
    }
  }

  /** Every gate in `t` comes right after the render of `page`. */
  predicate GatesFollow(t: seq<PreviewEvent>, page: nat) {
    forall j :: 0 <= j < |t| && t[j] == GateAppended ==> j > 0 && t[j - 1] == PageRendered(page)
  }

  lemma {:induction false} GateFollowsItsPage(i: nat, k: nat, gate: nat)
    requires i >= 1
    ensures GatesFollow(PageEvents(i, k, gate), gate)
    decreases k + 1 - i
  {
    if i <= k {
      var head := [CanvasAppended(i), PageRendered(i)] + (if i == gate then [GateAppended] else []);
      var rest := PageEvents(i + 1, k, gate);
      GateFollowsItsPage(i + 1, k, gate);
      var t := head + rest;
      forall j | 0 <= j < |t| && t[j] == GateAppended
        ensures j > 0 && t[j - 1] == PageRendered(gate)
      {
        if j < |head| {
          assert t[j] == head[j] && t[1] == head[1] == PageRendered(i);
          assert head[0] != GateAppended && head[1] != GateAppended;
          assert j == 2 && i == gate;
        } else {
          var r := j - |head|;
          assert rest[r] == t[j] == GateAppended;
          assert GatesFollow(rest, gate);
          assert t[j - 1] == rest[r - 1];
        }
      }
    }
  }

  /** The loading text shows until `ready`, which only a run still mounted at its end reaches. */
  predicate ShowsLoading(t: seq<PreviewEvent>) {
    ReadySet !in t
  }

  lemma LoadingUntilReady(doc: Option<nat>, mountedAtEnd: bool)
    ensures ShowsLoading(RenderTrace(doc, mountedAtEnd)) <==> doc.None? || !mountedAtEnd
  {
    if doc.Some? {
      var t := RenderTrace(doc, mountedAtEnd);
      var pages := PageEvents(1, PagesToRender(doc.value), 2);
      NoReadyInPages(1, PagesToRender(doc.value), 2);
      if !mountedAtEnd {
        assert t == [Cleared] + pages;
        assert forall j :: 0 <= j < |t| ==> t[j] != ReadySet by {
          forall j | 0 <= j < |t|
            ensures t[j] != ReadySet
          {
            if j > 0 {
              assert t[j] == pages[j - 1];
            }
          }
        }
      } else {
        assert t[|t| - 1] == ReadySet;
      }
    }
  }

  lemma {:induction false} NoReadyInPages(i: nat, k: nat, gate: nat)
    requires i >= 1
    ensures ReadySet !in PageEvents(i, k, gate)
    decreases k + 1 - i
  {
    if i <= k {
      NoReadyInPages(i + 1, k, gate);
    }
  }
}

=== FILE: profile_page.dfy ===
/**
 * The profile page: the signed-in user's own uploads, renaming and deleting
 * them, and saving the profile form. Each handler is the list of effects it
 * issues; page state that a handler sets is returned alongside.
 */
module ProfilePage {
  import opened Maybe
  import opened Text
  import opened Api
  import opened Seqs
  import opened NotesRoutes
  import opened AuthContext
  import opened ClientApi

  const LoginPath := "/login"

  /**
   * The effect run whenever the user changes: signed out, the page sends
   * the visitor to the login page and fetches nothing; signed in, it fetches
   * the listing.
   */
  function OnUserChange(user: Option<AuthUser>): (effects: seq<Effect>)
    ensures user.None? ==> effects == [Navigate(LoginPath)] && Requests(effects) == []
    ensures user.Some? ==> Requests(effects) == [GetNotes] && forall e :: e in effects ==> !e.Navigate?
  {
    if user.None? then [Navigate(LoginPath)] else [Send(GetNotes)]
  }

  /** `n.ownerEmail === user.email`: an absent owner matches a user without an email. */
  predicate OwnedBy(email: Option<string>, n: Note) {
    n.ownerEmail == email
  }

  /** "My uploads": the listed notes whose owner is the user, in listing order. */
  function MyUploads(user: AuthUser, listed: seq<Note>): (mine: seq<Note>)
    ensures forall n :: n in mine <==> n in listed && n.ownerEmail == user.email
    ensures IsSubsequence(mine, listed)
    ensures forall n :: multiset(mine)[n] == if n.ownerEmail == user.email then multiset(listed)[n] else 0
  {
    var owned := (n: Note) => OwnedBy(user.email, n);
    FilterIsSubsequence(listed, owned);
    FilterMembers(listed, owned);
    Filter(listed, owned)
  }

  /** Filtering what is already filtered changes nothing. */
  lemma MyUploadsStable(user: AuthUser, listed: seq<Note>)
    ensures MyUploads(user, MyUploads(user, listed)) == MyUploads(user, listed)
  {
    var owned := (n: Note) => OwnedBy(user.email, n);
    FilterTwice(listed, owned, owned, owned);
  }

  datatype EditOutcome = EditOutcome(effects: seq<Effect>, editing: Option<string>)

  /**
   * `saveEdit`, called from the Save button of the note being edited: the
   * rename input's value, trimmed; when that is empty (or the input is gone)
   * nothing is sent and edit mode ends. Otherwise a PATCH carrying only the
   * title is awaited. `settled` says whether that `fetch` settled (whatever
   * the status) rather than rejected: only then does edit mode end and the
   * list refresh; a rejected `fetch` stops the handler with `id` still
   * being edited.
   */
  function SaveEdit(id: string, input: Option<string>, settled: bool): (out: EditOutcome)
    ensures out.editing.None? <==> Blank(input) || settled
    ensures out.editing.Some? ==> out.editing.value == id
    ensures Blank(input) ==> out.effects == []
    ensures !Blank(input) ==> |out.effects| >= 1 && out.effects[0] == Send(PatchNote(id, PatchBody(Some(Trim(input.value)), None)))
    ensures !Blank(input) ==> (Send(GetNotes) in out.effects <==> settled)
    ensures !Blank(input) && settled ==> out.effects == [Send(PatchNote(id, PatchBody(Some(Trim(input.value)), None))), Send(GetNotes)]
    ensures !Blank(input) && !settled ==> out.effects == [Send(PatchNote(id, PatchBody(Some(Trim(input.value)), None)))]
  {
    if Blank(input) then EditOutcome([], None)
    else
      var patch := Send(PatchNote(id, PatchBody(Some(Trim(input.value)), None)));
      if settled then EditOutcome([patch, Send(GetNotes)], None)
      else EditOutcome([patch], Some(id))
  }

  /** A rename sends at most one PATCH, and only a non-empty trimmed title. */
  lemma RenameSendsTrimmedTitle(id: string, input: Option<string>, settled: bool)
    ensures var sent := Requests(SaveEdit(id, input, settled).effects);
      forall q :: q in sent && q.PatchNote? ==>
        q.id == id && q.body.description.None? && q.body.title.Some?
        && q.body.title.value != "" && Trim(q.body.title.value) == q.body.title.value
  {
    if !Blank(input) {
      TrimIdempotent(input.value);
    }
  }

  /** `String(undefined)`. */
  function JsString(o: Option<string>): string {
    if o.Some? then o.value else "undefined"
  }

  /**
   * `onProfileSave`: each form field, or when it is empty the user's current
   * value, goes to `updateProfile`.
   */
  function OnProfileSave(user: AuthUser, formName: Option<string>, formEmail: Option<string>): (effects: seq<Effect>)
    ensures |effects| == 1 && effects[0].CallUpdateProfile?
    ensures var args := effects[0].args;
      && args.avatarUrl.None?
      && args.name == Some(if Truthy(formName) then formName.value else user.name)
      && args.email == Some(if Truthy(formEmail) then formEmail.value else JsString(user.email))
  {
    var name := if Truthy(formName) then formName.value else user.name;
    var email := if Truthy(formEmail) then formEmail.value else JsString(user.email);
    [CallUpdateProfile(ProfileUpdate(Some(name), Some(email), None))]
  }

  /** For a signed-in user the saved profile always carries a name. */
  lemma ProfileSaveKeepsName(s: SessionUser, formName: Option<string>, formEmail: Option<string>)
    ensures var user := MapSessionUser(Some(s)).value;
      var args := OnProfileSave(user, formName, formEmail)[0].args;
      UpdatePayload(args).dataName.Some?
  {
  }

  /**
   * A user without an email who leaves the email field empty sends the
   * text `"undefined"` as the new email.
   */
  lemma ProfileSaveWithoutEmail(user: AuthUser, formName: Option<string>)
    requires user.email.None?
    ensures UpdatePayload(OnProfileSave(user, formName, None)[0].args).email == Some("undefined")
  {
  }

  /**
   * `deleteNote`: one DELETE for the id is awaited; the refresh follows only
   * when that `fetch` settled (whatever the status), not when it rejected.
   */
  function OnDelete(id: string, settled: bool): (effects: seq<Effect>)
    ensures settled ==> Requests(effects) == [DeleteNoteById(id), GetNotes]
    ensures !settled ==> Requests(effects) == [DeleteNoteById(id)]
  {
    if settled then [Send(DeleteNoteById(id)), Send(GetNotes)] else [Send(DeleteNoteById(id))]
  }

  /** `onAvatarChange`: the chosen image, read as a data URL, becomes the avatar; no file, no call. */
  function OnAvatarChange(dataUrl: Option<string>): (effects: seq<Effect>)
    ensures dataUrl.None? <==> effects == []
    ensures dataUrl.Some? ==> effects == [CallUpdateProfile(ProfileUpdate(None, None, dataUrl))]
  {
    match dataUrl
    case None => []
    case Some(_) => [CallUpdateProfile(ProfileUpdate(None, None, dataUrl))]
  }
}

=== FILE: seqs.dfy ===
/** `Array.prototype.filter` and the subsequence relation it produces. */
module Seqs {

  /** `a` is `b` with some elements left out, the rest in their original order. */
  predicate IsSubsequence<T(==)>(a: seq<T>, b: seq<T>)
    decreases |b|
  {
    if a == [] then true
    else if b == [] then false
    else if a[0] == b[0] then IsSubsequence(a[1..], b[1..])
    else IsSubsequence(a, b[1..])
  }

  /** `s.filter(keep)`. */
  function Filter<T(==, !new)>(s: seq<T>, keep: T -> bool): (r: seq<T>)
    ensures |r| <= |s|
    ensures forall i :: 0 <= i < |r| ==> keep(r[i]) && r[i] in s
    ensures forall i :: 0 <= i < |s| && keep(s[i]) ==> s[i] in r
    ensures forall x :: multiset(r)[x] == if keep(x) then multiset(s)[x] else 0
  {
    if s == [] then []
    else
      assert s == [s[0]] + s[1..];
      (if keep(s[0]) then [s[0]] else []) + Filter(s[1..], keep)
  }

  /** An element is kept exactly when it occurs in `s` and passes the test. */
  lemma FilterMembers<T(!new)>(s: seq<T>, keep: T -> bool)
    ensures forall x :: x in Filter(s, keep) <==> x in s && keep(x)
  {
    var r := Filter(s, keep);
    forall x | x in s && keep(x)
      ensures x in r
    {
      var i :| 0 <= i < |s| && s[i] == x;
    }
  }

  /** The kept elements appear in `s` in the same order. */
  lemma {:induction false} FilterIsSubsequence<T(!new)>(s: seq<T>, keep: T -> bool)
    ensures IsSubsequence(Filter(s, keep), s)
    decreases |s|
  {
    if s != [] {
      FilterIsSubsequence(s[1..], keep);
      var rest := Filter(s[1..], keep);
      if keep(s[0]) {
        assert Filter(s, keep) == [s[0]] + rest;
        assert ([s[0]] + rest)[1..] == rest;
      } else {
        assert Filter(s, keep) == rest;
        SubsequenceOfTail(rest, s);
      }
    }
  }

  lemma SubsequenceOfTail<T>(a: seq<T>, s: seq<T>)
    requires s != [] && IsSubsequence(a, s[1..])
    ensures IsSubsequence(a, s)
    decreases |a| + |s|
  {
    if a != [] && a[0] == s[0] {
      SubsequenceCons(a, s[1..]);
    }
  }

  /** Dropping the head of a subsequence keeps it a subsequence. */
  lemma {:induction false} SubsequenceCons<T>(a: seq<T>, b: seq<T>)
    requires a != [] && IsSubsequence(a, b)
    ensures IsSubsequence(a[1..], b)
    decreases |a| + |b|
  {
    if a[1..] != [] && b != [] {
      if a[0] == b[0] {
        SubsequenceOfTail(a[1..], b);
      } else {
        assert IsSubsequence(a, b[1..]);
        SubsequenceCons(a, b[1..]);
        SubsequenceOfTail(a[1..], b);
      }
    }
  }

  /** Two filters in a row keep exactly what one filter on the conjunction keeps. */
  lemma {:induction false} FilterTwice<T(!new)>(s: seq<T>, p: T -> bool, q: T -> bool, both: T -> bool)
    requires forall x :: both(x) == (p(x) && q(x))
    ensures Filter(Filter(s, p), q) == Filter(s, both)
    decreases |s|
  {
    if s != [] {
      FilterTwice(s[1..], p, q, both);
      if p(s[0]) {
        assert Filter(s, p) == [s[0]] + Filter(s[1..], p);
        assert ([s[0]] + Filter(s[1..], p))[1..] == Filter(s[1..], p);
      } else {
        assert Filter(s, p) == Filter(s[1..], p);
      }
    }
  }

  /** A filter that rejects nothing is the identity. */
  lemma {:induction false} FilterAll<T(!new)>(s: seq<T>, keep: T -> bool)
    requires forall x :: keep(x)
    ensures Filter(s, keep) == s
    decreases |s|
  {
    if s != [] {
      FilterAll(s[1..], keep);
    }
  }

  /**
   * Every element of `s` satisfies `p`. The quantifier only fires on
   * applications of `p`, so an expensive `p` is unfolded on demand.
   */
  predicate All<T>(s: seq<T>, p: T -> bool) {
    forall j {:trigger p(s[j])} :: 0 <= j < |s| ==> p(s[j])
  }

  lemma AllAppend<T>(s: seq<T>, x: T, p: T -> bool)
    requires All(s, p) && p(x)
    ensures All(s + [x], p)
  {
    var all := s + [x];
    forall j | 0 <= j < |all|
      ensures p(all[j])
    {
      if j < |s| {
        assert all[j] == s[j] && p(s[j]);
      }
    }
  }

  lemma AllRemove<T>(s: seq<T>, i: nat, p: T -> bool)
    requires i < |s| && All(s, p)
    ensures All(s[..i] + s[i + 1..], p)
  {
    var rest := s[..i] + s[i + 1..];
    forall j | 0 <= j < |rest|
      ensures p(rest[j])
    {
      var k := if j < i then j else j + 1;
      assert rest[j] == s[k] && p(s[k]);
    }
  }

  lemma AllReplace<T>(s: seq<T>, i: nat, x: T, p: T -> bool)
    requires i < |s| && All(s, p) && p(x)
    ensures All(s[i := x], p)
  {
    var after := s[i := x];
    forall j | 0 <= j < |after|
      ensures p(after[j])
    {
      if j != i {
        assert after[j] == s[j] && p(s[j]);
      }
    }
  }

  lemma UpdateLast<T>(s: seq<T>, x: T, y: T)
    ensures (s + [x])[|s| := y] == s + [y]
  {
  }

  lemma RemoveLast<T>(s: seq<T>, x: T)
    ensures (s + [x])[..|s|] + (s + [x])[|s| + 1..] == s
  {
    assert (s + [x])[..|s|] == s;
  }
}

=== FILE: text.dfy ===
/**
 * The JavaScript string operations the application relies on, stated over
 * `seq<char>`: `trim`, truthiness, `includes`, `startsWith`, `toLowerCase`,
 * `split(c)[0]`, `replace(/c/g, r)`, decimal formatting of a number, and the
 * ordering `localeCompare` gives ISO-8601 timestamps.
 */
module Text {
  import opened Maybe

  // ---------------------------------------------------------------------------
  // Whitespace and trim
  // ---------------------------------------------------------------------------

  /** The ECMAScript WhiteSpace and LineTerminator code points: exactly what `String.prototype.trim` strips. */
  const SpaceChars: set<char> := {
    '\t', '\n', '\U{000B}', '\U{000C}', '\r', ' ', '\U{00A0}', '\U{1680}',
    '\U{2000}', '\U{2001}', '\U{2002}', '\U{2003}', '\U{2004}', '\U{2005}',
    '\U{2006}', '\U{2007}', '\U{2008}', '\U{2009}', '\U{200A}',
    '\U{2028}', '\U{2029}', '\U{202F}', '\U{205F}', '\U{3000}', '\U{FEFF}'
  }

  predicate IsSpace(c: char) {
    c in SpaceChars
  }

  /** Every character of `s` is whitespace. */
  predicate AllSpace(s: string) {
    forall i :: 0 <= i < |s| ==> IsSpace(s[i])
  }

  /** The first index at or after `i` that does not hold whitespace, or `|s|`. */
  function SkipSpaces(s: string, i: nat): (r: nat)
    requires i <= |s|
    ensures i <= r <= |s|
    ensures forall k :: i <= k < r ==> IsSpace(s[k])
    ensures r < |s| ==> !IsSpace(s[r])
    decreases |s| - i
  {
    if i < |s| && IsSpace(s[i]) then SkipSpaces(s, i + 1) else i
  }

  /** The end of `s[..j]` once its trailing whitespace is dropped. */
  function SkipSpacesBack(s: string, j: nat): (r: nat)
    requires j <= |s|
    ensures r <= j
    ensures forall k :: r <= k < j ==> IsSpace(s[k])
    ensures r > 0 ==> !IsSpace(s[r - 1])
  {
    if j > 0 && IsSpace(s[j - 1]) then SkipSpacesBack(s, j - 1) else j
  }

  /**
   * `String.prototype.trim`: `s` without its leading and trailing
   * whitespace. Only whitespace is dropped, on either side.
   */
  function Trim(s: string): (r: string)
    ensures |r| <= |s|
    ensures r == [] <==> AllSpace(s)
    ensures r != [] ==> !IsSpace(r[0]) && !IsSpace(r[|r| - 1])
  {
    var a := SkipSpaces(s, 0);
    if a == |s| then
      []
    else
      var b := SkipSpacesBack(s, |s|);
      assert a < b;
      assert AllSpace(s[..a]) && AllSpace(s[b..]);
      s[a..b]
  }

  /** The trimmed string sits inside `s` with nothing but whitespace around it. */
  lemma TrimIsInfix(s: string)
    ensures var r := Trim(s); var a := SkipSpaces(s, 0);
      && a + |r| <= |s|
      && r == s[a..a + |r|]
      && AllSpace(s[..a]) && AllSpace(s[a + |r|..])
  {
  }

  /** A string without surrounding whitespace is its own trim. */
  lemma TrimmedIsFixed(s: string)
    requires s == [] || (!IsSpace(s[0]) && !IsSpace(s[|s| - 1]))
    ensures Trim(s) == s
  {
  }

  lemma TrimIdempotent(s: string)
    ensures Trim(Trim(s)) == Trim(s)
  {
    TrimmedIsFixed(Trim(s));
  }

  // ---------------------------------------------------------------------------
  // Truthiness of optional strings
  // ---------------------------------------------------------------------------

  /** JavaScript truthiness of an optional string: present and non-empty. */
  predicate Truthy(o: Option<string>) {
    o.Some? && o.value != ""
  }

  /**
   * `!x || !x.trim()`: absent, empty, or whitespace only. By `Trim`'s
   * contract, `Trim(x) == ""` exactly when `x` is all whitespace.
   */
  predicate Blank(o: Option<string>) {
    o.None? || AllSpace(o.value)
  }

  /** `x?.trim() || undefined`. */
  function TrimmedOrAbsent(o: Option<string>): (r: Option<string>)
    ensures r.None? <==> Blank(o)
    ensures r.Some? ==> r.value != "" && r.value == Trim(o.value)
  {
    if o.Some? && Trim(o.value) != "" then Some(Trim(o.value)) else None
  }

  /** `x ? String(x) : undefined`: kept verbatim when truthy, dropped otherwise. */
  function TruthyOrAbsent(o: Option<string>): (r: Option<string>)
    ensures r.None? <==> !Truthy(o)
    ensures r.Some? ==> r == o
  {
    if Truthy(o) then o else None
  }

  // ---------------------------------------------------------------------------
  // Prefixes, substrings, case
  // ---------------------------------------------------------------------------

  predicate StartsWith(s: string, prefix: string) {
    |prefix| <= |s| && s[..|prefix|] == prefix
  }

  /** `hay.includes(needle)`. */
  predicate Contains(hay: string, needle: string)
    decreases |hay|
  {
    StartsWith(hay, needle) || (|hay| > 0 && Contains(hay[1..], needle))
  }

  /** `Contains` holds exactly when `needle` occurs at some offset of `hay`. */
  lemma {:induction false} ContainsIff(hay: string, needle: string)
    ensures Contains(hay, needle) <==> exists i :: 0 <= i <= |hay| - |needle| && StartsWith(hay[i..], needle)
    decreases |hay|
  {
    assert hay[0..] == hay;
    if |hay| > 0 {
      ContainsIff(hay[1..], needle);
      if Contains(hay[1..], needle) {
        var i :| 0 <= i <= |hay| - 1 - |needle| && StartsWith(hay[1..][i..], needle);
        assert hay[1..][i..] == hay[i + 1..];
      }
      if i :| 0 <= i <= |hay| - |needle| && StartsWith(hay[i..], needle) {
        if i > 0 {
          assert hay[1..][i - 1..] == hay[i..];
          assert Contains(hay[1..], needle);
        }
      }
    }
  }

  /** `toLowerCase` on one character, for the ASCII letters. */
  function LowerChar(c: char): char {
    if 'A' <= c <= 'Z' then (c as int - 'A' as int + 'a' as int) as char else c
  }

  /** `toLowerCase`, for the ASCII letters. */
  function ToLower(s: string): (r: string)
    ensures |r| == |s|
    ensures forall i :: 0 <= i < |s| ==> r[i] == LowerChar(s[i])
  {
    if s == [] then [] else [LowerChar(s[0])] + ToLower(s[1..])
  }

  /** `s.split(c)[0]`: everything before the first `c`, or all of `s` when there is none. */
  function BeforeFirst(s: string, c: char): (r: string)
    ensures StartsWith(s, r)
    ensures c !in r
    ensures |r| < |s| ==> s[|r|] == c
  {
    if s == [] then []
    else if s[0] == c then []
    else [s[0]] + BeforeFirst(s[1..], c)
  }

  /** A string cut at its first `c` gives back what stood before it. */
  lemma {:induction false} BeforeFirstOf(a: string, c: char, b: string)
    requires c !in a
    ensures BeforeFirst(a + [c] + b, c) == a
    decreases |a|
  {
    var s := a + [c] + b;
    if a != [] {
      assert s[1..] == a[1..] + [c] + b;
      BeforeFirstOf(a[1..], c, b);
    }
  }

  /** `s.lastIndexOf(c)`, with `None` for -1. */
  function LastIndexOf(s: string, c: char): (r: Option<nat>)
    ensures r.Some? ==> r.value < |s| && s[r.value] == c && c !in s[r.value + 1..]
    ensures r.None? ==> c !in s
  {
    if s == [] then None
    else if s[|s| - 1] == c then Some(|s| - 1)
    else
      var r := LastIndexOf(s[..|s| - 1], c);
      assert s == s[..|s| - 1] + [s[|s| - 1]];
      r
  }

  /** `s.replace(/c/g, rep)`: every occurrence of `c` replaced by `rep`. */
  function ReplaceChar(s: string, c: char, rep: string): (r: string)
    ensures c !in rep ==> c !in r
    ensures s == [] ==> r == []
    ensures s == [c] ==> r == rep
    ensures |s| == 1 && s[0] != c ==> r == s
  {
    if s == [] then []
    else (if s[0] == c then rep else [s[0]]) + ReplaceChar(s[1..], c, rep)
  }

  /** Replacement works piecewise: it distributes over concatenation. */
  lemma {:induction false} ReplaceCharAppend(a: string, b: string, c: char, rep: string)
    ensures ReplaceChar(a + b, c, rep) == ReplaceChar(a, c, rep) + ReplaceChar(b, c, rep)
    decreases |a|
  {
    if a != [] {
      assert (a + b)[1..] == a[1..] + b;
      ReplaceCharAppend(a[1..], b, c, rep);
    } else {
      assert a + b == b;
    }
  }

  /** A string without `c` is left as it is. */
  lemma {:induction false} ReplaceCharAbsent(s: string, c: char, rep: string)
    requires c !in s
    ensures ReplaceChar(s, c, rep) == s
    decreases |s|
  {
    if s != [] {
      ReplaceCharAbsent(s[1..], c, rep);
    }
  }

  // ---------------------------------------------------------------------------
  // Decimal numbers (template-literal formatting of a non-negative integer)
  // ---------------------------------------------------------------------------

  predicate IsDigit(c: char) {
    '0' <= c <= '9'
  }

  predicate AllDigits(s: string) {
    forall i :: 0 <= i < |s| ==> IsDigit(s[i])
  }

  function DigitChar(d: nat): (c: char)
    requires d < 10
    ensures IsDigit(c)
  {
    ('0' as int + d) as char
  }

  /** `${n}` for a non-negative integer: its shortest decimal numeral. */
  function NatToString(n: nat): (r: string)
    ensures r != [] && AllDigits(r)
    ensures r[0] == '0' ==> n == 0
  {
    if n < 10 then [DigitChar(n)] else NatToString(n / 10) + [DigitChar(n % 10)]
  }

  /** The value of a decimal numeral. */
  function ParseDigits(s: string): nat
    requires AllDigits(s)
  {
    if s == [] then 0
    else 10 * ParseDigits(s[..|s| - 1]) + (s[|s| - 1] as int - '0' as int)
  }

  /** A numeral holds digits only, so no other character occurs in it. */
  lemma NumeralWithout(n: nat, c: char)
    requires !IsDigit(c)
    ensures c !in NatToString(n)
  {
    var digits := NatToString(n);
    forall i | 0 <= i < |digits|
      ensures digits[i] != c
    {
      assert IsDigit(digits[i]);
    }
  }

  /** Formatting a count and reading it back gives the count: the numeral is faithful. */
  lemma {:induction false} ParseNatToString(n: nat)
    ensures ParseDigits(NatToString(n)) == n
    decreases n
  {
    if n >= 10 {
      var s := NatToString(n);
      assert s[..|s| - 1] == NatToString(n / 10);
      ParseNatToString(n / 10);
    }
  }

  // ---------------------------------------------------------------------------
  // Ordering (what `localeCompare` gives timestamps of one fixed format)
  // ---------------------------------------------------------------------------

  /** `a` sorts strictly before `b`: lexicographic order on characters. */
  predicate Precedes(a: string, b: string)
    decreases |a|
  {
    if a == [] then b != []
    else if b == [] then false
    else if a[0] != b[0] then a[0] < b[0]
    else Precedes(a[1..], b[1..])
  }

  lemma {:induction false} PrecedesIrreflexive(a: string)
    ensures !Precedes(a, a)
    decreases |a|
  {
    if a != [] {
      PrecedesIrreflexive(a[1..]);
    }
  }

  /** Any two distinct strings are ordered one way or the other, and never both. */
  lemma {:induction false} PrecedesTrichotomy(a: string, b: string)
    ensures a == b || Precedes(a, b) || Precedes(b, a)
    ensures !(Precedes(a, b) && Precedes(b, a))
    decreases |a|
  {
    if a != [] && b != [] && a[0] == b[0] {
      PrecedesTrichotomy(a[1..], b[1..]);
      if a[1..] == b[1..] {
        assert a == [a[0]] + a[1..] && b == [b[0]] + b[1..];
      }
    }
  }

  lemma {:induction false} PrecedesTransitive(a: string, b: string, c: string)
    requires Precedes(a, b) && Precedes(b, c)
    ensures Precedes(a, c)
    decreases |a|
  {
    if a != [] && b != [] && c != [] && a[0] == b[0] && b[0] == c[0] {
      PrecedesTransitive(a[1..], b[1..], c[1..]);
    }
  }

  /** "Not before": the reflexive order `>=` the newest-first listing keeps. */
  lemma NotPrecedesTransitive(a: string, b: string, c: string)
    requires !Precedes(a, b) && !Precedes(b, c)
    ensures !Precedes(a, c)
  {
    PrecedesTrichotomy(a, b);
    PrecedesTrichotomy(b, c);
    PrecedesTrichotomy(a, c);
    if a != b && b != c {
      PrecedesTransitive(c, b, a);
    }
  }
}

=== FILE: viewer_page.dfy ===
/**
 * The note viewer page: it loads one note by id, picks a preview by the
 * note's MIME type, and offers a download that counts a view first.
 */
module ViewerPage {
  import opened Maybe
  import opened Text
  import opened Api
  import opened NotesRoutes
  import opened ClientApi
  import opened PdfPreview

  /**
   * What the page holds as `note`. A 404 answer is still JSON, so its body
   * `{ ok: false, error }` is set as the note: a truthy object without any
   * of a note's keys.
   */
  datatype Shown =
    | Nothing               // null: the "Loading note…" message
    | Loaded(note: Note)
    | ErrorObject           // the parsed body of a non-note answer

  /** On mount: without an id nothing is fetched; otherwise the note is requested. */
  function OnMount(id: Option<string>): (effects: seq<Effect>)
    ensures !Truthy(id) ==> effects == []
    ensures Truthy(id) ==> effects == [Send(GetNoteById(id.value))]
  {
    if Truthy(id) then [Send(GetNoteById(id.value))] else []
  }

  /**
   * The fetch's outcome: `None` when the request fails or the body is not
   * JSON, in which case the note is set to null and the loading message stays.
   */
  function OnFetched(reply: Option<Response>): (s: Shown)
    ensures reply.None? ==> s == Nothing
    ensures reply.Some? && reply.value.body.NoteJson? ==> s == Loaded(reply.value.body.note)
    ensures reply.Some? && !reply.value.body.NoteJson? ==> s == ErrorObject
  {
    match reply
    case None => Nothing
    case Some(r) => if r.body.NoteJson? then Loaded(r.body.note) else ErrorObject
  }

  /** The loading message shows exactly while the note is null: there is no separate failure screen. */
  predicate ShowsLoading(s: Shown) {
    s.Nothing?
  }

  datatype PreviewMode = PdfMode | ImageMode | DownloadOnly

  /** A PDF when the MIME type mentions `pdf`, else an image for `image/…`, else only a download button. */
  function ModeOf(mimeType: Option<string>): (m: PreviewMode)
    ensures m == PdfMode <==> mimeType.Some? && Contains(mimeType.value, "pdf")
    ensures m == ImageMode <==> mimeType.Some? && !Contains(mimeType.value, "pdf") && StartsWith(mimeType.value, "image/")
  {
    if mimeType.Some? && Contains(mimeType.value, "pdf") then PdfMode
    else if mimeType.Some? && StartsWith(mimeType.value, "image/") then ImageMode
    else DownloadOnly
  }

  /** The preview chosen for what is shown; the error object has no MIME type. */
  function Mode(s: Shown): (m: Option<PreviewMode>)
    ensures m.None? <==> ShowsLoading(s)
    ensures s.Loaded? ==> m == Some(ModeOf(Some(s.note.mimeType)))
    ensures s.ErrorObject? ==> m == Some(DownloadOnly)
  {
    match s
    case Nothing => None
    case Loaded(n) => Some(ModeOf(Some(n.mimeType)))
    case ErrorObject => Some(ModeOf(None))
  }

  /** A type that is both `pdf` and `image/` previews as a PDF. */
  lemma PdfTakesPriority(mimeType: string)
    requires Contains(mimeType, "pdf") && StartsWith(mimeType, "image/")
    ensures ModeOf(Some(mimeType)) == PdfMode
  {
  }

  /**
   * `onDownload`: nothing while the note is null; otherwise one view POST
   * for the note's id, then the browser leaves for the note's URL. For the
   * error object both are `undefined`.
   */
  function OnDownload(s: Shown): (effects: seq<Effect>)
    ensures s.Nothing? <==> effects == []
    ensures s.Loaded? ==> effects == [Send(PostView(s.note.id)), LeaveTo(s.note.url)]
    ensures s.ErrorObject? ==> effects == [Send(PostView("undefined")), LeaveTo("undefined")]
  {
    match s
    case Nothing => []
    case Loaded(n) => [Send(PostView(n.id)), LeaveTo(n.url)]
    case ErrorObject => [Send(PostView("undefined")), LeaveTo("undefined")]
  }

  /** A download counts exactly one view, and always of the note on screen. */
  lemma DownloadCountsOneView(s: Shown)
    requires s.Loaded?
    ensures Requests(OnDownload(s)) == [PostView(s.note.id)]
  {
    assert OnDownload(s)[1..] == [LeaveTo(s.note.url)];
  }

  /** `goBack`: one step back when there is history to go back to, else the library. */
  function GoBack(historyLength: nat): (effects: seq<Effect>)
    ensures historyLength > 1 <==> effects == [HistoryBack]
    ensures historyLength <= 1 <==> effects == [Navigate("/courses")]
  {
    if historyLength > 1 then [HistoryBack] else [Navigate("/courses")]
  }

  /**
   * Whether the screen, once the preview has run, holds a control that
   * triggers the download: the image and download-only previews always have
   * a button; the PDF preview only through its gate. `trace` is what the
   * PDF preview did.
   */
  predicate DownloadReachable(s: Shown, trace: seq<PreviewEvent>) {
    match Mode(s)
    case None => false
    case Some(m) => m != PdfMode || GateAppended in trace
  }

  /**
   * As written, a loaded one-page PDF leaves no way to download from the
   * viewer; with the gate after the last page every loaded note has one.
   */
  lemma OnePagePdfUnreachable(n: Note, mountedAtEnd: bool)
    requires Contains(n.mimeType, "pdf")
    ensures !DownloadReachable(Loaded(n), RenderTrace(Some(1), mountedAtEnd))
    ensures DownloadReachable(Loaded(n), GatedTrace(Some(1), mountedAtEnd))
  {
    OnePageHasNoGate(mountedAtEnd);
    GateAlwaysAdded(1, mountedAtEnd);
  }

  /**
   * With the corrected preview, every note on screen has a download control,
   * provided that a PDF has loaded with at least one page.
   */
  lemma DownloadAlwaysReachable(s: Shown, pages: nat, mountedAtEnd: bool)
    requires !ShowsLoading(s) && pages >= 1
    ensures DownloadReachable(s, GatedTrace(Some(pages), mountedAtEnd))
  {
    GateAlwaysAdded(pages, mountedAtEnd);
  }

  /**
   * A PDF that failed to load, or has no page, leaves no download control,
   * with the preview as written and with the corrected one: the gate is the
   * PDF preview's only control and comes after a rendered page.
   */
  lemma PdfWithoutPageUnreachable(s: Shown, mountedAtEnd: bool)
    requires Mode(s) == Some(PdfMode)
    ensures !DownloadReachable(s, RenderTrace(None, mountedAtEnd))
    ensures !DownloadReachable(s, GatedTrace(None, mountedAtEnd))
    ensures !DownloadReachable(s, RenderTrace(Some(0), mountedAtEnd))
    ensures !DownloadReachable(s, GatedTrace(Some(0), mountedAtEnd))
  {
  }
}
